=== FILE: README.md ===
# Farm work and payment ledger: a Dafny model

This project models the core of a small farm-labour backend. An administrator records
farmers, the work they do, and the payments made to them. Farmers log in to see their
own dashboard. The model covers four parts:

- **Ledger** (`routes/admin.js`, `models/Farmer.js`). The state is three collections:
  administrators, farmers (a map with unique phone numbers), and work records (a map).
  Each administrator route is a pure transition from a state and a request to a reply
  and a next state. The transitions are: create farmer, delete farmer (cascading to
  that farmer's work), add work (including the "hours.minutes" `timeStr` parser), update
  work, delete work, and add payment. Add payment appends to the farmer's history and
  then raises the named work's `paymentGiven`. The farmer document also carries the
  `totalPaid` fold, the hash-on-save hook, and the `toJSON` form without the password.
- **Credential decisions** (`routes/auth.js`, `routes/farmer.js`). These are admin login,
  farmer login, farmer self-registration, and the forgot-password flow, which is gated by
  the administrator's password. Each is an ordered chain of guards. Hashing is a
  deterministic stand-in for bcrypt that, like bcrypt, reads only the first 72
  characters of a password (`Crypto.Hash` and `Crypto.Matches`).
- **Role gates** (`middleware.js`, `routes/middleware.js`). Each gate is a pure decision
  from an optional `Authorization` header and a token-verification oracle to 401, 403,
  or a request context holding `req.user`. There are two near-identical copies. The farmer
  routes use the root copy, which checks the token format. The admin routes use the copy
  under `routes/`, which does not. The model proves that the two copies give the same
  status for every header whenever the verifier rejects a missing token.
- **Sessions**. These lemmas follow a token from the login that signs it, through a
  verifier that knows what it signed and reads an abstract clock, to each gate.

Files, one module each: `wrappers.dfy` (Option), `http.dfy` (statuses, replies),
`strings.dfy` (`split`, `padEnd`, `Number` on digit strings), `duration.dfy` (`timeStr`),
`crypto.dfy`, `tokens.dfy` (claims, verifier, header token), `middleware.dfy`,
`route_middleware.dfy`, `farmer_model.dfy`, `store.dfy`, `admin_routes.dfy`,
`auth_routes.dfy`, `farmer_routes.dfy`, `sessions.dfy`.

Parameters stand in for the outside world:

- The database supplies fresh ids. Handlers that create records take the new id as an
  argument, with the precondition that it is unused.
- The clock is an integer `now`, in seconds.
- `jwt.verify` is a `Verifier` oracle. `Tokens.Registry` is the concrete verifier used in
  the session lemmas.
- The uploaded file name is an optional string.

## Model

| member | source | states |
|---|---|---|
| `Strings.Split` | middleware.js:15 | `split` on one character yields at least one field; it yields exactly one field iff the separator is absent; no field contains the separator |
| `Strings.JoinSplit` | routes/admin.js:98 | joining the fields of a split with the separator gives back the original string |
| `Strings.SplitJoin` | routes/admin.js:98 | splitting a join of separator-free fields gives back exactly those fields |
| `Strings.PadEnd` | routes/admin.js:99 | `padEnd(n, c)` keeps the string as a prefix, fills only with `c`, and has length max(n, \|s\|); it never truncates |
| `Strings.DigitsRoundTrip` | routes/admin.js:99-101 | reading the decimal digits of n back as a number gives n |
| `Strings.JsNumberOfDigits` | routes/admin.js:99-101 | `Number` reads back every decimal rendering of a natural number; exactly the digit strings are numbers |
| `Strings.JsNumber` | routes/admin.js:99-101 | `Number` on a string is never negative here: it is the value of a digit string, and `NaN` otherwise |
| `Duration.MinutePartValue` | routes/admin.js:99 | the minute part after `(m \|\| '0').padEnd(2,'0')` is worth 0 when empty, 10·d for one digit d, and its own value for two or more digits |
| `Duration.ParseTimeStr` | routes/admin.js:96-102 | a parsed `timeStr` is never negative; a string of digits alone is that many minutes; a string with no dot that is not all digits is `NaN` |
| `Duration.HoursDotMinutes` | routes/admin.js:97-99 | for digit strings H and M, "H.M" denotes H·60 plus the padded value of M |
| `Duration.SecondDotIgnored` | routes/admin.js:98 | only the first two dot-separated fields count: "H.M.rest" denotes what "H.M" denotes |
| `Duration.ExampleTwoThirty` | routes/admin.js:95-103 | "2.30" is 150 minutes |
| `Duration.ExampleTwoThree` | routes/admin.js:99 | "2.3" is 150 minutes: one digit is padded to "30", not read as 3 |
| `Duration.ExampleTwoOhFive` | routes/admin.js:99 | "2.05" is 125 minutes |
| `Duration.ExampleNoTruncation` | routes/admin.js:99 | "2.345" is 465 minutes, because padding never truncates |
| `Duration.ExampleEmptyMinutes` | routes/admin.js:99 | "2." is 120 minutes, because an empty minute part reads as "0" |
| `Duration.ExampleMinutesOnly` | routes/admin.js:100-101 | "45", which has no dot, is 45 minutes |
| `Crypto.Hash` | models/Farmer.js:58-64 | a stored digest matches the password it was made from, and no password that differs from it within the first 72 characters |
| `Crypto.LongPasswordsCollide` | models/Farmer.js:58-64 | a password of 72 or more characters and any extension of it match exactly the same digests |
| `Tokens.BearerTokenOf` | middleware.js:15 | for a space-free scheme and token, "scheme token" (with or without further fields) yields exactly the token |
| `Tokens.MalformedHeaders` | middleware.js:15-18 | a header without a space yields no token ("Bearer"); a doubled space yields an empty one ("Bearer  x") |
| `Tokens.BearerToken` | middleware.js:15 | `split(' ')[1]` yields a token iff the header holds a space, and the token never holds a space |
| `Tokens.Registry` | routes/middleware.js:14-15 | the verifier accepts exactly the issued tokens whose expiry is still ahead and returns the claims they were signed with; when no empty token was issued it rejects an undefined or empty one |
| `Middleware.Authorize` | middleware.js:8-37 | a missing header gives 401; a missing or empty token gives 401 before verification; a failed verification gives 401 "Invalid or expired token"; a verified token of another role gives 403 with the gate's role message; it admits iff the token verifies with the required role, and then the context holds the decoded id and that role |
| `Middleware.RolesExclusive` | middleware.js:23-59 | no header passes both `authAdmin` and `authFarmer`; a header that passes one gets 403 from the other |
| `RouteMiddleware.Authorize` | routes/middleware.js:6-31 | a missing header gives 401; whatever `split(' ')[1]` yields goes to verification; a failed verification gives 401 "Invalid or expired token"; a verified token of another role gives 403 with the gate's role message; it admits iff verification gives the required role, and then the context holds the decoded id and that role |
| `RouteMiddleware.RolesExclusive` | routes/middleware.js:17-47 | no header passes both of this file's gates |
| `RouteMiddleware.AgreesWithFormatCheckingGate` | routes/middleware.js:12-15 | if the verifier rejects an undefined or empty token, this gate and the format-checking gate give every header the same status and the same admitted context |
| `RouteMiddleware.GatesAgree` | routes/middleware.js:6-59 | both `authAdmin` copies agree on every status, and so do both `authFarmer` copies |
| `RouteMiddleware.AgreementNeedsStrictVerifier` | routes/middleware.js:12-15 | with a verifier that accepts an undefined token, "Bearer" gets through this gate but gets 401 from the format-checking one |
| `RouteMiddleware.FarmerTokenNeverAdmin` | routes/middleware.js:17-19 | a farmer-role token gets 403 from the admin gate before it expires and 401 after; it is never admitted |
| `FarmerModel.FindByPhone` | models/Farmer.js:29-34 | the lookup finds a farmer iff the phone is registered, and then it is that phone's farmer; phones are unique across the collection (`FarmerMap`) |
| `FarmerModel.NewDoc` | models/Farmer.js:39-48 | a new farmer starts with no payments and with its password marked as assigned |
| `FarmerModel.Save` | models/Farmer.js:56-60 | saving hashes an assigned password, keeps a loaded digest unchanged, and writes every other field as it stands |
| `FarmerModel.SaveRehashesOnlyModified` | models/Farmer.js:56-65 | a save that changes only the payments leaves the stored digest alone; after a password is assigned, exactly the passwords that agree with it on the first 72 characters pass `comparePassword` |
| `FarmerModel.TotalPaid` | models/Farmer.js:68-71 | with no payments the total is 0; with non-negative amounts it is non-negative |
| `FarmerModel.TotalPaidAppend` | models/Farmer.js:70 | appending a payment of amount a raises the total by exactly a |
| `FarmerModel.TotalPaidConcat` | models/Farmer.js:70 | the total of two concatenated histories is the sum of their totals |
| `FarmerModel.TotalPaidIsSum` | models/Farmer.js:70 | the left fold equals the plain sum of the amounts, taken first payment first |
| `FarmerModel.ToJson` | models/Farmer.js:74-79 | the serialised farmer has every field except `password`, and includes the `totalPaid` virtual |
| `Store.FirstIndex` | routes/auth.js:19 | `findOne` returns the first match in natural order, or nothing when no element matches |
| `Store.WorkTotal` | routes/admin.js:109 | total·60 = minutes·rate |
| `Store.WorkTotalExample` | routes/admin.js:109 | 90 minutes at rate 100 is 150 |
| `AdminRoutes.ChangePasswordOf` | routes/admin.js:16-29 | an unknown admin id gives 404; for a known one, a wrong old password gives 401 "Old password incorrect" and it succeeds iff the old password matches; every failure changes nothing; on success that admin's digest becomes the new password's |
| `AdminRoutes.ChangePassword` | routes/admin.js:12-33 | without `req.admin` the reply is 500 with the `TypeError` message; it can succeed only when `req.admin` is set; a failure changes nothing |
| `AdminRoutes.ChangePasswordAlwaysFails` | routes/admin.js:12-32 | behind the admin gate, change-password never succeeds and never changes state; every admitted call fails with 500 because `req.admin` is undefined |
| `AdminRoutes.ChangePasswordCorrectedWorks` | routes/admin.js:16-29 | read through `req.user.id`, the handler succeeds iff the admin exists and the old password matches; only that admin's password changes |
| `AdminRoutes.CreateFarmer` | routes/admin.js:36-63 | a missing field gives 400; a taken phone gives 409; both leave state unchanged; otherwise exactly one farmer is added, with the given name and phone, no payments, the profile image and a matching digest; the reply omits the password |
| `AdminRoutes.ListFarmers` | routes/admin.js:66-77 | lists every farmer, each serialised without the password |
| `AdminRoutes.DeleteFarmer` | routes/admin.js:80-88 | always succeeds; removes the farmer and every work naming it; every other farmer and every other farmer's work is unchanged |
| `AdminRoutes.AddWork` | routes/admin.js:91-126 | gives 400 with nothing stored iff farmerId, workType, the resolved minutes or the rate is falsy; otherwise adds exactly one work with total·60 = minutes·rate and paymentGiven 0; other works and all farmers are unchanged |
| `AdminRoutes.AddWorkFromTimeStr` | routes/admin.js:95-103 | with falsy minutes, "H.M" (digit fields) is stored as H·60 plus the padded M, charged at total·60 = minutes·rate, and gives 400 when that count is 0; truthy minutes are stored as given and the `timeStr` is ignored |
| `AdminRoutes.AddWorkMinutesChecks` | routes/admin.js:105-107 | 0 or absent minutes give 400; minutes 0 with "2.30" store 150; -30 minutes are accepted and give a negative total |
| `AdminRoutes.UpdateWork` | routes/admin.js:129-144 | always 200; an unknown id gives a null work and no change; otherwise minutes is replaced, each other field the request carries is replaced and each it omits keeps its stored value, the owner is kept, the total is recomputed from the request's rate (0 without one), and nothing else changes |
| `AdminRoutes.UpdateWithoutRateZeroesTotal` | routes/admin.js:131-136 | an update that omits the rate keeps the stored rate but stores a total of 0, so total·60 no longer equals minutes·rate |
| `AdminRoutes.DeleteWork` | routes/admin.js:147-154 | removes that work only; farmers, and the payments that reference the work, are untouched |
| `AdminRoutes.ListWork` | routes/admin.js:157-170 | with a farmer filter it returns exactly that farmer's works; without one it returns all works |
| `AdminRoutes.AddPayment` | routes/admin.js:173-205 | an unknown farmer gives 404 with nothing changed; otherwise exactly one entry is appended to that farmer's history; an existing named work's paymentGiven rises by exactly the amount; no other farmer or work changes; an unknown work id leaves the works untouched |
| `AdminRoutes.PaymentLedger` | routes/admin.js:183-199 | after a payment the old history is a prefix of the new one; the new one ends with the new entry; totalPaid rises by exactly the amount; the password digest is unchanged |
| `AdminRoutes.GateGuardsEveryRoute` | routes/admin.js:7 | when the admin gate refuses a request, the request reaches no handler: the reply is 401 or 403 and state is unchanged |
| `AdminRoutes.Serve` | routes/admin.js:7-12 | a request the admin gate refuses gets the gate's status and message and changes nothing; a request it admits gets exactly the reply and next state of its route's handler, given the context the gate built; a success needs a header whose token verifies with the admin role |
| `AuthRoutes.AdminLogin` | routes/auth.js:11-39 | a missing username or password gives 400; a bad login gives 401 "Invalid username or password"; success iff the first account with that username matches, and then it signs {id, role "admin"} for 12 hours |
| `AuthRoutes.AdminLoginHidesAccounts` | routes/auth.js:19-27 | for the same request, any two failing stores give the identical reply, so a failure does not reveal whether the account exists |
| `AuthRoutes.FarmerLogin` | routes/auth.js:42-75 | a missing phone or password gives 400; a bad login gives 401 "Invalid credentials"; on success it signs {id, role "farmer"} for 7 days and returns the farmer's id and name |
| `AuthRoutes.FarmerLoginHidesAccounts` | routes/auth.js:50-58 | a failed farmer login does not reveal whether the phone is registered |
| `AuthRoutes.ForgotPassword` | routes/auth.js:78-115 | the checks run in order: missing field 400, then no admin 404, then wrong admin password 401, then unknown phone 404; every failure leaves state unchanged; with every field present, a valid admin password and a registered phone it succeeds, and then changes only that farmer's password |
| `AuthRoutes.ForgotPasswordHidesPhones` | routes/auth.js:87-101 | without the admin password, stores with the same admins give the same reply whatever farmers they hold, and none changes |
| `FarmerRoutes.Register` | routes/farmer.js:8-39 | a missing field gives 400; a taken phone gives 409; both leave state unchanged; otherwise the reply is 201 and exactly one farmer is added with no payments, no profile image and a matching digest |
| `FarmerRoutes.DashboardOf` | routes/farmer.js:45-60 | an unknown farmer id gives 404; otherwise the reply holds that farmer's id, name, phone and payments, a `totalPaid` equal to the plain sum of the payment amounts, and exactly the works whose farmer is that id |
| `FarmerRoutes.Dashboard` | routes/farmer.js:42-60 | a request the farmer gate refuses gets the gate's reply; a request it admits gets exactly the dashboard handler's reply for the admitted farmer (404 for an unknown id, otherwise that farmer's record and works); a success is for the id the gate admitted |
| `FarmerRoutes.DashboardOnlyForFarmers` | middleware.js:57-59 | only a verified farmer-role token opens the dashboard, and only that farmer's own; any other verified role gets 403 |
| `Sessions.HeaderCarriesToken` | middleware.js:15 | "Bearer <token>" hands exactly the token to both gates |
| `Sessions.FarmerSessionCannotAdminister` | routes/auth.js:60-64 | a farmer's login token gets 403 from every admin route for 7 days and 401 afterwards, and the state never changes |
| `Sessions.FarmerSessionOpensOwnDashboard` | routes/auth.js:60-71 | a farmer's login token opens that farmer's own dashboard until it expires |
| `Sessions.AdminSessionAdmitted` | routes/auth.js:29-35 | an admin's login token passes the admin gate for 12 hours with `req.user` set to the admin's id; the farmer dashboard refuses it with 403 |
| `Sessions.AdminSessionRecordsPayment` | routes/admin.js:173-205 | for 12 hours after an admin login, a payment request carrying its token gets exactly the add-payment handler's reply and next state |

## Findings

| source | as written | input that shows it | evidently intended | confidence | as-written member | corrected member |
|---|---|---|---|---|---|---|
| routes/admin.js:16 | the handler reads `req.admin.id`, but the gate (routes/middleware.js:22) only sets `req.user`, so the access throws and the reply is 500 | any admin request that the gate admits, e.g. a valid admin token with the correct old password | look the administrator up by `req.user.id` | high; not executed | `AdminRoutes.ChangePasswordAlwaysFails` (about `AdminRoutes.ChangePassword`) | `AdminRoutes.ChangePasswordCorrectedWorks` (about `AdminRoutes.ChangePasswordCorrected`) |

## Left out

- Process bootstrap (index.js): environment loading, the database connection, route mounting, the 404 fallback, the listener, and default-admin seeding.
- Express and multer request plumbing, and the file storage behind uploads. Only the computed `profileImage` string is modelled.
- Database mechanics: the `sort` orders of the list routes and of the dashboard's works (the works are returned as a map), `populate` of the farmer's name and phone, the `createdAt`/`updatedAt` timestamps, the payment `date`, and the `notes` field's absence. Mongoose's cast of a malformed id string throws a `CastError`, which the handlers answer with 500; ids here are always well formed.
- Store failures, and the 500 replies a `catch` block sends for them. Of the 500s that follow from a request rather than from the store, only the change-password `TypeError` is modelled; add payment's is not (next line).
- `AdminRoutes.AddPayment`: `amount` is always a number here. An absent or non-numeric `amount` becomes `NaN` through `Number`, the payment schema's required numeric `amount` refuses it, so `farmer.save()` rejects before any write and the reply is 500 with neither farmers nor works changed. The model cannot express that request.
- The two writes of add payment are not atomic. The model runs them in sequence with no interleaving and no crash between them. Concurrent requests are not modelled either.
- Arithmetic is exact `real` arithmetic instead of IEEE-754 doubles, so `minutes / 60 * rate` does not round.
- `Number` is modelled only on digit strings, with `Number("") = 0`. Every other string is `NaN` here, including JavaScript's signed, decimal, exponent, hexadecimal and whitespace-padded forms. Request numbers that arrive as JSON numbers are integers (minutes) or reals (rate, amount, paymentGiven), never `NaN`.
- `AdminRoutes.AddWork`: numeric request fields that arrive as strings (a urlencoded body, or JSON strings) are not modelled; `minutes`, `ratePer60` and `amount` are numbers here. In JavaScript the string `"0"` is truthy, so `minutes: "0"` skips `timeStr` and passes the guard, storing 0 minutes with total 0, and `ratePer60: "0"` likewise passes the guard with total 0. The model reads 0 as falsy in both fields, so it answers 400 or parses `timeStr`; `AdminRoutes.AddWorkMinutesChecks` speaks of the number 0 only.
- The schema's `trim` on name and phone is not modelled; request strings arrive already trimmed.
- `AdminRoutes.UpdateWork`: `minutes` is always present in the request. Without it JavaScript computes a `NaN` total, which is not modelled. An omitted field keeps its stored value, as Mongoose drops `undefined` keys from an update.
- `Crypto.Hash`: the salt is not modelled, so the digest is deterministic. A reset to the same password yields the same digest. The 72-byte limit is counted in characters, not UTF-8 bytes, so a password with multi-byte characters is cut later here than by bcrypt.
- `FarmerModel.SaveRehashesOnlyModified`: a password is matched on its first 72 characters, not its first 72 UTF-8 bytes, for the same reason.
- jsonwebtoken signatures and the secret are not modelled. A token is an opaque string and `jwt.verify` is an oracle. Expiry is modelled by `Tokens.Registry` against an abstract clock.
- models/Admin.js and models/Work.js are not part of this model. An administrator's fields (id, username, digest) and a work's fields are taken from their uses in the routes. Admin passwords are assumed to be hashed on save like the farmer's.
- Payment removal and a balance computation do not exist in these routes, so neither is modelled.
- `AuthRoutes.ForgotPassword`: success is not proved to change the state, because with the deterministic digest a reset to the same password changes nothing. The ensures say only that a failure leaves the state unchanged.

=== FILE: admin_routes.dfy ===
/** The administrator routes of routes/admin.js, each a transition from a state
    and a request to a reply and the next state, behind the gate of
    routes/middleware.js. */
module AdminRoutes {
  import opened Wrappers
  import opened Http
  import opened Crypto
  import opened Tokens
  import opened FarmerModel
  import opened Store
  import opened Duration
  import opened Strings
  import RouteMiddleware

  const MissingFields := "Missing fields"

  /** The TypeError `req.admin.id` raises when `req.admin` is undefined. */

  /* ---------------- change admin password ---------------- */

  /** The change-password chain once the administrator's id is known: unknown id
      404, wrong old password 401, otherwise that administrator's digest becomes
      the digest of the new password. */
  function ChangePasswordOf(st: State, adminId: Id, oldPassword: string, newPassword: string): (r: Step<()>)
    ensures FindAdminById(st.admins, adminId).None? ==> r == Step(Err(NotFound, "Admin not found"), st)
    ensures FindAdminById(st.admins, adminId).Some?
            && !Matches(oldPassword, st.admins[FindAdminById(st.admins, adminId).value].hash) ==>
              r == Step(Err(Unauthorized, "Old password incorrect"), st)
    ensures FindAdminById(st.admins, adminId).Some? ==>
              (r.reply.Ok? <==> Matches(oldPassword, st.admins[FindAdminById(st.admins, adminId).value].hash))
    ensures r.reply.Err? ==> r.next == st
    ensures r.reply.Ok? ==>
              exists i :: 0 <= i < |st.admins| && st.admins[i].id == adminId && Matches(oldPassword, st.admins[i].hash)
    ensures r.reply.Ok? ==> var i := FindAdminById(st.admins, adminId).value;
              && Matches(oldPassword, st.admins[i].hash)
              && r.next == st.(admins := st.admins[i := st.admins[i].(hash := Hash(newPassword))])
  {
    match FindAdminById(st.admins, adminId)
    case None => Step(Err(NotFound, "Admin not found"), st)
    case Some(i) =>
      var admin := st.admins[i];
      if !Matches(oldPassword, admin.hash) then Step(Err(Unauthorized, "Old password incorrect"), st)
      else Step(Ok(OK, ()), st.(admins := st.admins[i := admin.(hash := Hash(newPassword))]))
  }

  /** The handler as written: it looks the administrator up through `req.admin.id`,
      which the gate never sets, so the property access throws and the reply is 500. */
  function ChangePassword(st: State, ctx: Ctx, oldPassword: string, newPassword: string): (r: Step<()>)
    ensures ctx.admin.None? ==> r == Step(Err(ServerError, UndefinedId), st)
    ensures r.reply.Ok? ==> ctx.admin.Some?
    ensures r.reply.Err? ==> r.next == st
  {
    match ctx.admin
    case None => Step(Err(ServerError, UndefinedId), st)
    case Some(admin) => ChangePasswordOf(st, admin.id, oldPassword, newPassword)
  }

  /** The handler as evidently intended: the administrator's id is `req.user.id`,
      the field the gate does set. */
  function ChangePasswordCorrected(st: State, ctx: Ctx, oldPassword: string, newPassword: string): Step<()> {
    match ctx.user
    case None => Step(Err(ServerError, UndefinedId), st)
    case Some(user) => ChangePasswordOf(st, user.id, oldPassword, newPassword)
  }

  /* ---------------- farmers ---------------- */

  /** `/uploads/<filename>` for an uploaded profile picture, null without one. */
  function ProfileImage(upload: Option<string>): (r: Option<string>)
    ensures upload.None? <==> r.None?
    ensures upload.Some? ==> r.value == "/uploads/" + upload.value
  {
    match upload
    case None => None
    case Some(filename) => Some("/uploads/" + filename)
  }

  /** Create farmer: 400 on a missing field, 409 when the phone is taken, otherwise
      exactly one new farmer with no payments, whose digest matches the password. */
  function CreateFarmer(st: State, newId: Id, name: string, phone: string, password: string, upload: Option<string>): (r: Step<Json>)
    requires newId !in st.farmers
    ensures name == "" || phone == "" || password == "" ==> r == Step(Err(BadRequest, MissingFields), st)
    ensures name != "" && phone != "" && password != "" && PhoneTaken(st.farmers, phone) ==>
              r == Step(Err(Conflict, "Farmer already exists"), st)
    ensures r.reply.Ok? <==> name != "" && phone != "" && password != "" && !PhoneTaken(st.farmers, phone)
    ensures r.reply.Ok? ==>
              && r.reply.status == OK
              && r.next.farmers.Keys == st.farmers.Keys + {newId}
              && (forall id :: id in st.farmers ==> r.next.farmers[id] == st.farmers[id])
              && r.next.admins == st.admins && r.next.works == st.works
    ensures r.reply.Ok? ==> var f := r.next.farmers[newId];
              && f.name == name && f.phone == phone && f.payments == []
              && ComparePassword(f, password)
              && f.profileImage == ProfileImage(upload)
              && r.reply.body == ToJson(newId, f)
              && "password" !in r.reply.body.fields
  {
    if name == "" || phone == "" || password == "" then Step(Err(BadRequest, MissingFields), st)
    else if FindByPhone(st.farmers, phone).Some? then Step(Err(Conflict, "Farmer already exists"), st)
    else
      var farmer := Save(NewDoc(name, phone, password, ProfileImage(upload)));
      Step(Ok(OK, ToJson(newId, farmer)), st.(farmers := Insert(st.farmers, newId, farmer)))
  }

  /** List farmers: every farmer, serialised without the password. */
  function ListFarmers(st: State): (r: map<Id, Json>)
    ensures r.Keys == st.farmers.Keys
    ensures forall id :: id in r ==> r[id].JObj? && "password" !in r[id].fields
    ensures forall id :: id in r ==> r[id] == ToJson(id, st.farmers[id])
  {
    map id | id in st.farmers :: ToJson(id, st.farmers[id])
  }

  /** Delete farmer: removes the farmer and, with it, every work that names it. */
  function DeleteFarmer(st: State, id: Id): (r: Step<()>)
    ensures r.reply == Ok(OK, ())
    ensures r.next.farmers.Keys == st.farmers.Keys - {id}
    ensures forall k :: k in r.next.farmers ==> r.next.farmers[k] == st.farmers[k]
    ensures forall w :: w in r.next.works ==> r.next.works[w].farmer != id
    ensures forall w :: w in st.works && st.works[w].farmer != id ==> w in r.next.works && r.next.works[w] == st.works[w]
    ensures r.next.works.Keys <= st.works.Keys
    ensures r.next.admins == st.admins
  {
    var works := map w | w in st.works && st.works[w].farmer != id :: st.works[w];
    Step(Ok(OK, ()), st.(farmers := Remove(st.farmers, id), works := works))
  }

  /* ---------------- work ---------------- */

  /** Add work: the minutes are taken from `timeStr` when the `minutes` field is
      falsy; the request is refused with 400 when the farmer id, the work type, the
      resulting minutes or the rate is falsy. The farmer id is not checked against
      the farmers, and negative values are not refused. */
  function AddWork(st: State, newId: Id, farmerId: Id, workType: string, minutes: Option<int>,
                   ratePer60: real, notes: string, timeStr: string): (r: Step<Work>)
    requires newId !in st.works
    ensures var m := ResolveMinutes(minutes, timeStr);
            r.reply.Err? <==> farmerId == "" || workType == "" || !Truthy(m) || ratePer60 == 0.0
    ensures r.reply.Err? ==> r == Step(Err(BadRequest, MissingFields), st)
    ensures r.reply.Ok? ==> var w := r.reply.body;
              && r.reply.status == OK
              && w.farmer == farmerId && w.workType == workType && w.notes == notes
              && Some(w.minutes) == ResolveMinutes(minutes, timeStr) && w.minutes != 0
              && w.ratePer60 == ratePer60
              && w.totalAmount * 60.0 == w.minutes as real * ratePer60
              && w.paymentGiven == 0.0
    ensures r.reply.Ok? ==>
              && r.next.works.Keys == st.works.Keys + {newId}
              && r.next.works[newId] == r.reply.body
              && (forall k :: k in st.works ==> r.next.works[k] == st.works[k])
              && r.next.farmers == st.farmers && r.next.admins == st.admins
  {
    var m := ResolveMinutes(minutes, timeStr);
    if farmerId == "" || workType == "" || !Truthy(m) || ratePer60 == 0.0 then
      Step(Err(BadRequest, MissingFields), st)
    else
      var work := Work(farmerId, workType, m.value, ratePer60, WorkTotal(m.value, ratePer60), notes, 0.0);
      Step(Ok(OK, work), st.(works := st.works[newId := work]))
  }

  /** A dotted `timeStr` stands in for a falsy `minutes`: "H.M" with digit fields is
      stored as H hours and M minutes (a one-digit M counting tens), and the total is
      charged on that count. A truthy `minutes` wins over any `timeStr`. */
  lemma {:induction false} AddWorkFromTimeStr(st: State, newId: Id, farmerId: Id, workType: string, minutes: Option<int>,
                                              rate: real, notes: string, h: string, m: string)
    requires newId !in st.works && farmerId != "" && workType != "" && rate != 0.0
    requires AllDigits(h) && AllDigits(m)
    ensures var r := AddWork(st, newId, farmerId, workType, minutes, rate, notes, h + "." + m);
            var parsed := DigitsValue(h) * 60 + MinuteValue(m);
            && (!Truthy(minutes) && parsed != 0 ==>
                  r.reply.Ok? && r.reply.body.minutes == parsed
                  && r.reply.body.totalAmount * 60.0 == parsed as real * rate)
            && (!Truthy(minutes) && parsed == 0 ==> r == Step(Err(BadRequest, MissingFields), st))
            && (Truthy(minutes) ==> r.reply.Ok? && r.reply.body.minutes == minutes.value)
  {
    var s := h + "." + m;
    var parsed := DigitsValue(h) * 60 + MinuteValue(m);
    if Truthy(minutes) {
      assert ResolveMinutes(minutes, s) == minutes;
    } else {
      HoursDotMinutes(h, m);
      assert s != "" by { assert |s| == |h| + 1 + |m|; }
      assert ResolveMinutes(minutes, s) == Some(parsed);
    }
  }

  /** Zero minutes are refused, and a falsy `minutes` gives way to `timeStr`; but
      nothing checks the sign, so a negative count is stored, with a negative total. */
  lemma AddWorkMinutesChecks(st: State, newId: Id, farmerId: Id, workType: string, rate: real, notes: string)
    requires newId !in st.works && farmerId != "" && workType != "" && rate != 0.0
    ensures AddWork(st, newId, farmerId, workType, Some(0), rate, notes, "") == Step(Err(BadRequest, MissingFields), st)
    ensures AddWork(st, newId, farmerId, workType, None, rate, notes, "") == Step(Err(BadRequest, MissingFields), st)
    ensures var r := AddWork(st, newId, farmerId, workType, Some(0), rate, notes, "2.30");
            r.reply.Ok? && r.reply.body.minutes == 150
    ensures var r := AddWork(st, newId, farmerId, workType, Some(-30), rate, notes, "");
            r.reply.Ok? && r.reply.body.minutes == -30 && (rate > 0.0 ==> r.reply.body.totalAmount < 0.0)
  {
    ExampleTwoThirty();
  }

  /** Update work: each field the request carries replaces the stored one and each
      it leaves out (`undefined`, which the update drops) keeps its stored value; the
      owner is kept. The total is always recomputed, from the new minutes and the
      request's rate, or 0 when the request carries none (`ratePer60 || 0`). An
      unknown id is not an error: the reply is a success carrying no work, and
      nothing changes. */
  function UpdateWork(st: State, id: Id, workType: Option<string>, minutes: int, ratePer60: Option<real>,
                      paymentGiven: Option<real>, notes: Option<string>): (r: Step<Option<Work>>)
    ensures r.reply.Ok? && r.reply.status == OK
    ensures id !in st.works ==> r == Step(Ok(OK, None), st)
    ensures id in st.works ==> r.reply.body.Some? && var prev := st.works[id]; var w := r.reply.body.value;
              && w.farmer == prev.farmer && w.minutes == minutes
              && (workType.Some? ==> w.workType == workType.value)
              && (workType.None? ==> w.workType == prev.workType)
              && (ratePer60.Some? ==> w.ratePer60 == ratePer60.value)
              && (ratePer60.None? ==> w.ratePer60 == prev.ratePer60)
              && (paymentGiven.Some? ==> w.paymentGiven == paymentGiven.value)
              && (paymentGiven.None? ==> w.paymentGiven == prev.paymentGiven)
              && (notes.Some? ==> w.notes == notes.value)
              && (notes.None? ==> w.notes == prev.notes)
              && (ratePer60.Some? ==> w.totalAmount * 60.0 == minutes as real * ratePer60.value)
              && (ratePer60.None? ==> w.totalAmount == 0.0)
              && r.next.works.Keys == st.works.Keys && r.next.works[id] == w
              && (forall k :: k in st.works && k != id ==> r.next.works[k] == st.works[k])
              && r.next.farmers == st.farmers && r.next.admins == st.admins
  {
    if id in st.works then
      var stored := st.works[id];
      var work := stored.(workType := workType.GetOr(stored.workType), minutes := minutes,
                          ratePer60 := ratePer60.GetOr(stored.ratePer60),
                          totalAmount := WorkTotal(minutes, ratePer60.GetOr(0.0)),
                          paymentGiven := paymentGiven.GetOr(stored.paymentGiven), notes := notes.GetOr(stored.notes));
      Step(Ok(OK, Some(work)), st.(works := st.works[id := work]))
    else
      Step(Ok(OK, None), st)
  }

  /** Leaving the rate out of an update keeps the stored rate but zeroes the stored
      total: the record afterwards claims an hourly rate its total does not reflect. */
  lemma UpdateWithoutRateZeroesTotal(st: State, id: Id, minutes: int)
    requires id in st.works && st.works[id].ratePer60 != 0.0 && minutes != 0
    ensures var w := UpdateWork(st, id, None, minutes, None, None, None).reply.body.value;
              && w.ratePer60 == st.works[id].ratePer60
              && w.totalAmount == 0.0
              && w.totalAmount * 60.0 != w.minutes as real * w.ratePer60
  {
  }

  /** Delete work: removes that record only; payments naming it keep their reference. */
  function DeleteWork(st: State, id: Id): (r: Step<()>)
    ensures r.reply == Ok(OK, ())
    ensures r.next.works.Keys == st.works.Keys - {id}
    ensures forall k :: k in r.next.works ==> r.next.works[k] == st.works[k]
    ensures r.next.farmers == st.farmers && r.next.admins == st.admins
  {
    Step(Ok(OK, ()), st.(works := st.works - {id}))
  }

  /** List work: all works, or those of one farmer when a farmer id is given. */
  function ListWork(st: State, farmerId: string): (r: map<Id, Work>)
    ensures farmerId == "" ==> r == st.works
    ensures farmerId != "" ==> forall w :: w in r <==> w in st.works && st.works[w].farmer == farmerId
    ensures forall w :: w in r ==> w in st.works && r[w] == st.works[w]
  {
    if farmerId == "" then st.works else WorksOf(st.works, farmerId)
  }

  /* ---------------- payments ---------------- */

  /** The history entry a payment request appends: `workId || null`. */
  function NewPayment(amount: real, workId: string): (p: Payment)
    ensures p.amount == amount
    ensures p.workId.None? <==> workId == ""
    ensures p.workId.Some? ==> p.workId.value == workId
  {
    Payment(amount, if workId == "" then None else Some(workId))
  }

  /** Add payment: 404 for an unknown farmer with nothing changed; otherwise one
      entry appended to the farmer's history and, when `workId` names an existing
      work, that work's paid amount raised by exactly the payment. */
  function AddPayment(st: State, farmerId: Id, amount: real, workId: string): (r: Step<()>)
    ensures farmerId !in st.farmers <==> r.reply.Err?
    ensures farmerId !in st.farmers ==> r == Step(Err(NotFound, "Farmer not found"), st)
    ensures farmerId in st.farmers ==> var f := st.farmers[farmerId];
              && r.reply == Ok(OK, ())
              && r.next.farmers.Keys == st.farmers.Keys
              && r.next.farmers[farmerId] == f.(payments := f.payments + [NewPayment(amount, workId)])
              && (forall k :: k in st.farmers && k != farmerId ==> r.next.farmers[k] == st.farmers[k])
              && r.next.works.Keys == st.works.Keys
              && (forall k :: k in st.works && k != workId ==> r.next.works[k] == st.works[k])
              && (workId in st.works && workId != "" ==>
                    r.next.works[workId] == st.works[workId].(paymentGiven := st.works[workId].paymentGiven + amount))
              && (workId !in st.works || workId == "" ==> r.next.works == st.works)
              && r.next.admins == st.admins
  {
    if farmerId !in st.farmers then Step(Err(NotFound, "Farmer not found"), st)
    else
      var farmer := st.farmers[farmerId];
      var saved := Save(Load(farmer).(payments := farmer.payments + [NewPayment(amount, workId)]));
      var farmers := Replace(st.farmers, farmerId, saved);
      var works :=
        if workId != "" && workId in st.works then
          var work := st.works[workId];
          st.works[workId := work.(paymentGiven := work.paymentGiven + amount)]
        else st.works;
      Step(Ok(OK, ()), st.(farmers := farmers, works := works))
  }

  /** The ledger after a payment: the farmer's history is the old one plus one entry,
      its total paid rises by exactly the amount, the stored password digest is the
      same, and an attributed work's paid amount rises by the same amount. */
  lemma PaymentLedger(st: State, farmerId: Id, amount: real, workId: string)
    requires farmerId in st.farmers
    ensures var r := AddPayment(st, farmerId, amount, workId);
            var before := st.farmers[farmerId];
            var after := r.next.farmers[farmerId];
            && |after.payments| == |before.payments| + 1
            && after.payments[..|before.payments|] == before.payments
            && after.payments[|before.payments|] == NewPayment(amount, workId)
            && TotalPaid(after.payments) == TotalPaid(before.payments) + amount
            && after.hash == before.hash
            && (workId != "" && workId in st.works ==>
                  r.next.works[workId].paymentGiven == st.works[workId].paymentGiven + amount)
  {
  }

  /* ---------------- the gated router ---------------- */

  /** An administrator request. Ids of created records are the fresh ids the
      database assigns. */
  datatype Request =
    | ChangePasswordReq(oldPassword: string, newPassword: string)
    | CreateFarmerReq(newFarmerId: Id, name: string, phone: string, password: string, upload: Option<string>)
    | ListFarmersReq
    | DeleteFarmerReq(farmerId: Id)
    | AddWorkReq(newWorkId: Id, workFarmer: Id, workType: string, minutes: Option<int>, rate: real, notes: string, timeStr: string)
    | UpdateWorkReq(workId: Id, newType: Option<string>, newMinutes: int, newRate: Option<real>, newPaid: Option<real>, newNotes: Option<string>)
    | DeleteWorkReq(deletedWork: Id)
    | ListWorkReq(filterFarmer: string)
    | AddPaymentReq(payee: Id, amount: real, paidWork: string)

  /** The payload of a successful administrator reply. */
  datatype Body =
    | Done
    | FarmerCreated(farmer: Json)
    | FarmerList(farmers: map<Id, Json>)
    | WorkSaved(work: Work)
    | WorkUpdated(updated: Option<Work>)
    | WorkList(works: map<Id, Work>)

  /** The ids the database assigns are fresh. */
  predicate FreshIds(st: State, req: Request) {
    && (req.CreateFarmerReq? ==> req.newFarmerId !in st.farmers)
    && (req.AddWorkReq? ==> req.newWorkId !in st.works)
  }

  function Wrap<T>(s: Step<T>, f: T -> Body): Step<Body> {
    match s.reply
    case Ok(status, body) => Step(Ok(status, f(body)), s.next)
    case Err(status, error) => Step(Err(status, error), s.next)
  }

  /** The handler a request reaches once the gate has let it through. */
  function Dispatch(st: State, ctx: Ctx, req: Request): Step<Body>
    requires FreshIds(st, req)
  {
    match req
    case ChangePasswordReq(o, n) => Wrap(ChangePassword(st, ctx, o, n), (_: ()) => Done)
    case CreateFarmerReq(id, name, phone, password, upload) =>
      Wrap(CreateFarmer(st, id, name, phone, password, upload), (j: Json) => FarmerCreated(j))
    case ListFarmersReq => Step(Ok(OK, FarmerList(ListFarmers(st))), st)
    case DeleteFarmerReq(id) => Wrap(DeleteFarmer(st, id), (_: ()) => Done)
    case AddWorkReq(id, farmer, workType, minutes, rate, notes, timeStr) =>
      Wrap(AddWork(st, id, farmer, workType, minutes, rate, notes, timeStr), (w: Work) => WorkSaved(w))
    case UpdateWorkReq(id, workType, minutes, rate, paid, notes) =>
      Wrap(UpdateWork(st, id, workType, minutes, rate, paid, notes), (w: Option<Work>) => WorkUpdated(w))
    case DeleteWorkReq(id) => Wrap(DeleteWork(st, id), (_: ()) => Done)
    case ListWorkReq(farmer) => Step(Ok(OK, WorkList(ListWork(st, farmer))), st)
    case AddPaymentReq(farmer, amount, work) => Wrap(AddPayment(st, farmer, amount, work), (_: ()) => Done)
  }

  /** Every administrator route: the gate of routes/middleware.js, then the handler. */
  function Serve(st: State, header: Option<string>, verify: Verifier, req: Request): (r: Step<Body>)
    requires FreshIds(st, req)
    ensures var g := RouteMiddleware.AuthAdmin(header, verify);
            g.Reject? ==> r == Step(Err(g.status, g.error), st)
    ensures var g := RouteMiddleware.AuthAdmin(header, verify);
            g.Proceed? ==> r == Dispatch(st, g.ctx, req)
    ensures r.reply.Ok? ==>
              && HeaderPresent(header)
              && verify(RouteMiddleware.RawToken(header)).Some?
              && verify(RouteMiddleware.RawToken(header)).value.role == AdminRole
  {
    match RouteMiddleware.AuthAdmin(header, verify)
    case Reject(status, error) => Step(Err(status, error), st)
    case Proceed(ctx) => Dispatch(st, ctx, req)
  }

  /** A request the gate refuses reaches no handler: the reply is the gate's 401 or
      403 and the state is unchanged. */
  lemma GateGuardsEveryRoute(st: State, header: Option<string>, verify: Verifier, req: Request)
    requires FreshIds(st, req)
    requires RouteMiddleware.AuthAdmin(header, verify).Reject?
    ensures Serve(st, header, verify, req).next == st
    ensures Serve(st, header, verify, req).reply.Err?
    ensures Serve(st, header, verify, req).reply.status in {Unauthorized, Forbidden}
  {
  }

  /** Change-password never succeeds and never changes anything: a request the gate
      admits arrives without `req.admin` and fails with 500, and any other is
      refused by the gate. */
  lemma ChangePasswordAlwaysFails(st: State, header: Option<string>, verify: Verifier, oldPassword: string, newPassword: string)
    ensures var r := Serve(st, header, verify, ChangePasswordReq(oldPassword, newPassword));
            && r.reply.Err? && r.next == st
            && (RouteMiddleware.AuthAdmin(header, verify).Proceed? ==> r.reply == Err(ServerError, UndefinedId))
  {
  }

  /** The corrected handler, behind the same gate: for an admitted administrator
      whose account exists and whose old password matches, the password changes
      to the new one and nothing else changes; otherwise the state is unchanged. */
  lemma ChangePasswordCorrectedWorks(st: State, header: Option<string>, verify: Verifier, oldPassword: string, newPassword: string)
    requires RouteMiddleware.AuthAdmin(header, verify).Proceed?
    ensures var ctx := RouteMiddleware.AuthAdmin(header, verify).ctx;
            var r := ChangePasswordCorrected(st, ctx, oldPassword, newPassword);
            var i := FindAdminById(st.admins, ctx.user.value.id);
            && (r.reply.Ok? <==> i.Some? && Matches(oldPassword, st.admins[i.value].hash))
            && (r.reply.Ok? ==>
                  && |r.next.admins| == |st.admins|
                  && Matches(newPassword, r.next.admins[i.value].hash)
                  && r.next.admins[i.value].id == st.admins[i.value].id
                  && r.next.admins[i.value].username == st.admins[i.value].username
                  && (forall j :: 0 <= j < |st.admins| && j != i.value ==> r.next.admins[j] == st.admins[j])
                  && r.next.farmers == st.farmers && r.next.works == st.works)
            && (r.reply.Err? ==> r.next == st)
  {
  }
}

=== FILE: auth_routes.dfy ===
/** The unauthenticated routes of routes/auth.js: administrator login, farmer
    login, and the farmer password reset gated by the administrator's password.
    The logins only read the state; they return a reply and no next state. */
module AuthRoutes {
  import opened Wrappers
  import opened Http
  import opened Crypto
  import opened Tokens
  import opened FarmerModel
  import opened Store

  const MissingCredentials := "Missing credentials"
  const BadAdminLogin := "Invalid username or password"
  const BadFarmerLogin := "Invalid credentials"

  /** The administrator a username and password identify: the first account with
      that username, provided the password matches it. */
  predicate AdminCredentialsValid(st: State, username: string, password: string) {
    var i := FindAdminByUsername(st.admins, username);
    i.Some? && Matches(password, st.admins[i.value].hash)
  }

  /** Administrator login: 400 without a username or password; the same 401 for an
      unknown username and for a wrong password; otherwise a token for the
      administrator with role "admin", valid for 12 hours. */
  function AdminLogin(st: State, username: string, password: string, now: int): (r: Reply<Claims>)
    ensures username == "" || password == "" ==> r == Err(BadRequest, MissingCredentials)
    ensures username != "" && password != "" && !AdminCredentialsValid(st, username, password) ==>
              r == Err(Unauthorized, BadAdminLogin)
    ensures r.Ok? <==> username != "" && password != "" && AdminCredentialsValid(st, username, password)
    ensures r.Ok? ==> var i := FindAdminByUsername(st.admins, username).value;
              && r.status == OK
              && r.body == Claims(st.admins[i].id, AdminRole, now + AdminLifetime)
              && st.admins[i].username == username
  {
    if username == "" || password == "" then Err(BadRequest, MissingCredentials)
    else
      match FindAdminByUsername(st.admins, username)
      case None => Err(Unauthorized, BadAdminLogin)
      case Some(i) =>
        var admin := st.admins[i];
        if !Matches(password, admin.hash) then Err(Unauthorized, BadAdminLogin)
        else Ok(OK, Sign(admin.id, AdminRole, AdminLifetime, now))
  }

  /** A failed administrator login tells the caller nothing about the accounts: for
      the same request, any two stores that refuse it give the identical reply,
      whether or not the username exists in either. */
  lemma AdminLoginHidesAccounts(st1: State, st2: State, username: string, password: string, now: int)
    requires AdminLogin(st1, username, password, now).Err?
    requires AdminLogin(st2, username, password, now).Err?
    ensures AdminLogin(st1, username, password, now) == AdminLogin(st2, username, password, now)
  {
  }

  /** A farmer's successful login: the token, the farmer's id and name. */
  datatype FarmerSession = FarmerSession(token: Claims, farmerId: Id, name: string)

  predicate FarmerCredentialsValid(st: State, phone: string, password: string) {
    var id := FindByPhone(st.farmers, phone);
    id.Some? && ComparePassword(st.farmers[id.value], password)
  }

  /** Farmer login: 400 without a phone or password; the same 401 for an unknown
      phone and for a wrong password; otherwise a token for the farmer with role
      "farmer", valid for 7 days, with the farmer's id and name. */
  function FarmerLogin(st: State, phone: string, password: string, now: int): (r: Reply<FarmerSession>)
    ensures phone == "" || password == "" ==> r == Err(BadRequest, MissingCredentials)
    ensures phone != "" && password != "" && !FarmerCredentialsValid(st, phone, password) ==>
              r == Err(Unauthorized, BadFarmerLogin)
    ensures r.Ok? <==> phone != "" && password != "" && FarmerCredentialsValid(st, phone, password)
    ensures r.Ok? ==> var id := r.body.farmerId;
              && r.status == OK
              && id in st.farmers && st.farmers[id].phone == phone
              && r.body.name == st.farmers[id].name
              && r.body.token == Claims(id, FarmerRole, now + FarmerLifetime)
  {
    if phone == "" || password == "" then Err(BadRequest, MissingCredentials)
    else
      match FindByPhone(st.farmers, phone)
      case None => Err(Unauthorized, BadFarmerLogin)
      case Some(id) =>
        var farmer := st.farmers[id];
        if !ComparePassword(farmer, password) then Err(Unauthorized, BadFarmerLogin)
        else Ok(OK, FarmerSession(Sign(id, FarmerRole, FarmerLifetime, now), id, farmer.name))
  }

  /** A failed farmer login does not reveal whether the phone is registered. */
  lemma FarmerLoginHidesAccounts(st1: State, st2: State, phone: string, password: string, now: int)
    requires FarmerLogin(st1, phone, password, now).Err?
    requires FarmerLogin(st2, phone, password, now).Err?
    ensures FarmerLogin(st1, phone, password, now) == FarmerLogin(st2, phone, password, now)
  {
  }

  const AllFieldsRequired := "All fields are required"

  /** Whether `adminPassword` opens the reset: it must match the first administrator
      (`Admin.findOne({})`). */
  predicate AdminPasswordValid(st: State, adminPassword: string) {
    |st.admins| > 0 && Matches(adminPassword, st.admins[0].hash)
  }

  /** Forgot password, checked in this order: a missing field 400, no administrator
      404, a wrong administrator password 401, an unknown phone 404. Only past all
      four does anything change: that one farmer's password becomes the new one. */
  function ForgotPassword(st: State, phone: string, newPassword: string, adminPassword: string): (r: Step<()>)
    ensures phone == "" || newPassword == "" || adminPassword == "" ==>
              r == Step(Err(BadRequest, AllFieldsRequired), st)
    ensures phone != "" && newPassword != "" && adminPassword != "" && |st.admins| == 0 ==>
              r == Step(Err(NotFound, "Admin not found"), st)
    ensures phone != "" && newPassword != "" && adminPassword != "" && |st.admins| > 0
            && !AdminPasswordValid(st, adminPassword) ==>
              r == Step(Err(Unauthorized, "Invalid admin password"), st)
    ensures phone != "" && newPassword != "" && adminPassword != "" && AdminPasswordValid(st, adminPassword)
            && !PhoneTaken(st.farmers, phone) ==>
              r == Step(Err(NotFound, "Farmer not found"), st)
    ensures (phone != "" && newPassword != "" && adminPassword != "" && AdminPasswordValid(st, adminPassword)
             && PhoneTaken(st.farmers, phone)) ==> r.reply == Ok(OK, ())
    ensures r.reply.Err? ==> r.next == st
    ensures r.reply.Ok? ==> var id := FindByPhone(st.farmers, phone).value;
              && r.reply.status == OK
              && r.next.farmers.Keys == st.farmers.Keys
              && ComparePassword(r.next.farmers[id], newPassword)
              && r.next.farmers[id] == st.farmers[id].(hash := r.next.farmers[id].hash)
              && (forall k :: k in st.farmers && k != id ==> r.next.farmers[k] == st.farmers[k])
              && r.next.admins == st.admins && r.next.works == st.works
  {
    if phone == "" || newPassword == "" || adminPassword == "" then Step(Err(BadRequest, AllFieldsRequired), st)
    else if |st.admins| == 0 then Step(Err(NotFound, "Admin not found"), st)
    else if !Matches(adminPassword, st.admins[0].hash) then Step(Err(Unauthorized, "Invalid admin password"), st)
    else
      match FindByPhone(st.farmers, phone)
      case None => Step(Err(NotFound, "Farmer not found"), st)
      case Some(id) =>
        var farmer := st.farmers[id];
        var saved := Save(Load(farmer).(password := Assigned(newPassword)));
        Step(Ok(OK, ()), st.(farmers := Replace(st.farmers, id, saved)))
  }

  /** Without the administrator's password a caller learns nothing about which phones
      are registered: two stores with the same administrators give the same reply,
      and neither changes, whatever farmers they hold. */
  lemma ForgotPasswordHidesPhones(st1: State, st2: State, phone: string, newPassword: string, adminPassword: string)
    requires st1.admins == st2.admins
    requires !AdminPasswordValid(st1, adminPassword)
    ensures ForgotPassword(st1, phone, newPassword, adminPassword).reply == ForgotPassword(st2, phone, newPassword, adminPassword).reply
    ensures ForgotPassword(st1, phone, newPassword, adminPassword).next == st1
    ensures ForgotPassword(st2, phone, newPassword, adminPassword).next == st2
  {
  }
}

=== FILE: crypto.dfy ===
/** Password hashing. bcrypt is a salted one-way hash that reads only the first
    72 bytes of a password; the handlers only ever store `Hash(p)` and later ask
    whether a presented password `Matches` it. Here a deterministic digest of the
    significant prefix stands in for it (the salt is not modelled, and a character
    stands for a byte). */
module Crypto {

  /** The longest prefix of a password bcrypt takes into account. */
  const SignificantLength: nat := 72

  /** The part of a password bcrypt reads. */
  function Significant(password: string): (p: string)
    ensures |p| <= SignificantLength
    ensures |p| <= |password| && p == password[..|p|]
    ensures |password| <= SignificantLength ==> p == password
  {
    if |password| <= SignificantLength then password else password[..SignificantLength]
  }

  datatype Digest = Digest(preimage: string)

  /** `bcrypt.hash(password, 10)`. */
  function Hash(password: string): (d: Digest)
    ensures Matches(password, d)
    ensures forall other :: Significant(other) != Significant(password) ==> !Matches(other, d)
  {
    Digest(Significant(password))
  }

  /** `bcrypt.compare(password, digest)`. */
  predicate Matches(password: string, d: Digest) {
    d.preimage == Significant(password)
  }

  /** Two passwords that agree on their first 72 characters are interchangeable:
      whatever digest one matches, the other matches too. */
  lemma {:induction false} LongPasswordsCollide(password: string, suffix: string, d: Digest)
    requires |password| >= SignificantLength
    ensures Matches(password, d) <==> Matches(password + suffix, d)
  {
    assert (password + suffix)[..SignificantLength] == password[..SignificantLength];
  }

  /** The string the document's `password` field holds. bcrypt stores a salted hash
      there; this stand-in stores the significant prefix itself behind the `$2a$10$`
      tag, so the field must never leave the server, which `toJSON` ensures by
      deleting it (`FarmerModel.ToJson`). */
  function DigestText(d: Digest): string {
    "$2a$10$" + d.preimage
  }
}

=== FILE: duration.dfy ===
/** The "hours.minutes" duration notation accepted by the add-work route
    (routes/admin.js): a `timeStr` such as "2.30" stands for 2 hours 30 minutes. */
module Duration {
  import opened Wrappers
  import opened Strings

  /** `(m || '0').padEnd(2, '0')`: an empty minute part reads as "0", and a single
      digit is a tens digit ("3" means 30 minutes). */
  function MinutePart(m: string): string {
    PadEnd(if m == "" then "0" else m, 2, '0')
  }

  /** The minute count a `timeStr` denotes, or `None` where JavaScript computes `NaN`.
      With a dot, the text before the first dot counts hours and the text between the
      first and the second dot counts minutes; without one, the whole string is minutes. */
  function ParseTimeStr(s: string): (r: Option<int>)
    ensures r.Some? ==> r.value >= 0
    ensures AllDigits(s) ==> r == Some(DigitsValue(s))
    ensures '.' !in s && !AllDigits(s) ==> r.None?
  {
    if '.' in s then
      var parts := Split(s, '.');
      HoursAndMinutes(parts[0], parts[1])
    else
      JsNumber(s)
  }

  /** `Number(h) * 60 + Number(m')` for the two fields of a dotted `timeStr`, where
      `m'` is the padded minute part; `NaN` in either operand makes the sum `NaN`. */
  function HoursAndMinutes(h: string, m: string): Option<int> {
    var hv := JsNumber(h);
    var mv := JsNumber(MinutePart(m));
    if hv.Some? && mv.Some? then Some(hv.value * 60 + mv.value) else None
  }

  /** JavaScript truthiness of the request's minute count: absent, `''`, `NaN` and 0 are falsy. */
  predicate Truthy(minutes: Option<int>) {
    minutes.Some? && minutes.value != 0
  }

  /** The minute count the add-work route goes on with: the `timeStr` is consulted
      only when `minutes` is falsy and `timeStr` is a non-empty string. */
  function ResolveMinutes(minutes: Option<int>, timeStr: string): (r: Option<int>)
    ensures Truthy(minutes) ==> r == minutes
    ensures timeStr == "" ==> r == minutes
    ensures !Truthy(minutes) && timeStr != "" ==> r == ParseTimeStr(timeStr)
  {
    if !Truthy(minutes) && timeStr != "" then ParseTimeStr(timeStr) else minutes
  }

  /** The value of the padded minute part: nothing is 0, one digit `d` is `10 * d`,
      and two or more digits are read as they stand (padding never truncates). */
  function MinuteValue(m: string): nat
    requires AllDigits(m)
  {
    if |m| == 0 then 0
    else if |m| == 1 then 10 * DigitsValue(m)
    else DigitsValue(m)
  }

  lemma MinutePartValue(m: string)
    requires AllDigits(m)
    ensures JsNumber(MinutePart(m)) == Some(MinuteValue(m))
  {
    var p := MinutePart(m);
    if |m| == 0 {
      assert p == "00";
      assert p[..1] == "0" && "0"[..0] == "";
      assert DigitsValue("0") == 0;
    } else if |m| == 1 {
      assert p == m + "0";
      DigitsAppend(m, '0');
    } else {
      assert p == m;
    }
  }

  /** "H.M" with digit strings H and M denotes `H * 60` plus the padded value of M. */
  lemma {:induction false} HoursDotMinutes(h: string, m: string)
    requires AllDigits(h) && AllDigits(m)
    ensures ParseTimeStr(h + "." + m) == Some(DigitsValue(h) * 60 + MinuteValue(m))
  {
    var s := h + "." + m;
    assert s == Join([h, m], '.');
    assert '.' in s by { assert s[|h|] == '.'; }
    NoDotInDigits(h);
    NoDotInDigits(m);
    SplitJoin([h, m], '.');
    MinutePartValue(m);
  }

  /** Text after a second dot plays no part: "H.M.rest" denotes what "H.M" denotes. */
  lemma {:induction false} SecondDotIgnored(h: string, m: string, rest: string)
    requires '.' !in h && '.' !in m
    ensures ParseTimeStr(h + "." + m + "." + rest) == ParseTimeStr(h + "." + m)
  {
    var s := h + "." + m + "." + rest;
    var t := h + "." + m;
    assert s == h + ['.'] + (m + ['.'] + rest);
    assert t == h + ['.'] + m;
    SplitCons(h, m + ['.'] + rest, '.');
    SplitCons(m, rest, '.');
    SplitCons(h, m, '.');
    SplitNoSeparator(m, '.');
    assert s[|h|] == '.' && t[|h|] == '.';
    assert Split(s, '.')[..2] == [h, m];
    assert Split(t, '.') == [h, m];
  }

  lemma ExampleTwoThirty()
    ensures ParseTimeStr("2.30") == Some(150)
  {
    HoursDotMinutes("2", "30");
    assert "2" + "." + "30" == "2.30";
    assert DigitsValue("3") == 3;
  }

  lemma ExampleTwoThree()
    ensures ParseTimeStr("2.3") == Some(150)
  {
    HoursDotMinutes("2", "3");
    assert "2" + "." + "3" == "2.3";
  }

  lemma ExampleTwoOhFive()
    ensures ParseTimeStr("2.05") == Some(125)
  {
    HoursDotMinutes("2", "05");
    assert "2" + "." + "05" == "2.05";
    assert DigitsValue("0") == 0;
  }

  lemma ExampleNoTruncation()
    ensures ParseTimeStr("2.345") == Some(465)
  {
    HoursDotMinutes("2", "345");
    assert "2" + "." + "345" == "2.345";
    assert "345"[..2] == "34" && "34"[..1] == "3" && "3"[..0] == "";
    assert DigitsValue("345") == 345;
  }

  lemma ExampleEmptyMinutes()
    ensures ParseTimeStr("2.") == Some(120)
  {
    HoursDotMinutes("2", "");
    assert "2" + "." + "" == "2.";
  }

  lemma ExampleMinutesOnly()
    ensures ParseTimeStr("45") == Some(45)
  {
    assert '.' !in "45";
    assert DigitsValue("4") == 4;
  }
}

=== FILE: farmer_model.dfy ===
/** The farmer document of models/Farmer.js: its payment history, the `totalPaid`
    virtual, the hash-on-save hook, password comparison and the JSON form that
    strips the password. */
module FarmerModel {
  import opened Wrappers
  import opened Crypto
  import opened Tokens

  /** One entry of a farmer's payment history; `workId` defaults to null. The
      payment date is not modelled. */
  datatype Payment = Payment(amount: real, workId: Option<Id>)

  /** A stored farmer: the password is held only as a digest, and `payments` is in
      insertion (chronological) order. */
  datatype Farmer = Farmer(name: string, phone: string, hash: Digest, profileImage: Option<string>, payments: seq<Payment>)

  /** The unique index on `phone`: no two farmers share a phone number. */
  predicate PhonesUnique(fs: map<Id, Farmer>) {
    forall a, b :: a in fs && b in fs && fs[a].phone == fs[b].phone ==> a == b
  }

  /** The farmers collection. The database enforces the unique index on every
      write, so every state of the collection satisfies it. */
  type FarmerMap = fs: map<Id, Farmer> | PhonesUnique(fs) witness map[]

  predicate PhoneTaken(fs: map<Id, Farmer>, phone: string) {
    exists id :: id in fs && fs[id].phone == phone
  }

  /** `Farmer.findOne({ phone })`: the one farmer with that phone, if any. */
  function FindByPhone(fs: FarmerMap, phone: string): (r: Option<Id>)
    ensures r.Some? <==> PhoneTaken(fs, phone)
    ensures r.Some? ==> r.value in fs && fs[r.value].phone == phone
  {
    if PhoneTaken(fs, phone) then
      var id :| id in fs && fs[id].phone == phone;
      Some(id)
    else None
  }

  /** Adds a farmer under a fresh id; the unique index refuses a phone already taken. */
  function Insert(fs: FarmerMap, id: Id, f: Farmer): (r: FarmerMap)
    requires id !in fs && !PhoneTaken(fs, f.phone)
    ensures r.Keys == fs.Keys + {id} && r[id] == f
    ensures forall k :: k in fs ==> r[k] == fs[k]
  {
    fs[id := f]
  }

  /** Writes back a farmer whose phone is unchanged. */
  function Replace(fs: FarmerMap, id: Id, f: Farmer): (r: FarmerMap)
    requires id in fs && f.phone == fs[id].phone
    ensures r.Keys == fs.Keys && r[id] == f
    ensures forall k :: k in fs && k != id ==> r[k] == fs[k]
  {
    var r := fs[id := f];
    assert forall a, b :: a in r && b in r && r[a].phone == r[b].phone ==> a == b by {
      forall a, b | a in r && b in r && r[a].phone == r[b].phone
        ensures a == b
      {
        assert r[a].phone == fs[a].phone && r[b].phone == fs[b].phone;
      }
    }
    r
  }

  /** `Farmer.findByIdAndDelete(id)`. */
  function Remove(fs: FarmerMap, id: Id): (r: FarmerMap)
    ensures r.Keys == fs.Keys - {id}
    ensures forall k :: k in r ==> r[k] == fs[k]
  {
    fs - {id}
  }

  /** The password field of a document in memory: the digest it was loaded with, or
      a plaintext assigned since (what `isModified('password')` detects). */
  datatype Secret = Stored(digest: Digest) | Assigned(plain: string)

  /** A farmer document in memory, before `save()`. */
  datatype Doc = Doc(name: string, phone: string, password: Secret, profileImage: Option<string>, payments: seq<Payment>)

  /** `new Farmer({ name, phone, password, ... })`: the schema defaults give no
      payments, and the profile image defaults to null when none is passed. */
  function NewDoc(name: string, phone: string, password: string, profileImage: Option<string>): (d: Doc)
    ensures d.payments == [] && d.password == Assigned(password)
  {
    Doc(name, phone, Assigned(password), profileImage, [])
  }

  /** A stored farmer, loaded into memory. */
  function Load(f: Farmer): Doc {
    Doc(f.name, f.phone, Stored(f.hash), f.profileImage, f.payments)
  }

  /** The pre-save hook and the write: a modified password is hashed, an unmodified
      one is stored as it was loaded, and every other field is written as it stands. */
  function Save(d: Doc): (f: Farmer)
    ensures d.password.Assigned? ==> Matches(d.password.plain, f.hash)
    ensures d.password.Stored? ==> f.hash == d.password.digest
    ensures Load(f) == d.(password := Stored(f.hash))
  {
    var hash := match d.password
      case Stored(digest) => digest
      case Assigned(plain) => Hash(plain);
    Farmer(d.name, d.phone, hash, d.profileImage, d.payments)
  }

  /** `comparePassword`: whether `password` is the one the stored digest was made from. */
  function ComparePassword(f: Farmer, password: string): bool {
    Matches(password, f.hash)
  }

  /** Saving a document whose password was not touched leaves the stored digest
      alone; saving one whose password was assigned makes that password match, and
      with it exactly the passwords that share its first 72 characters. */
  lemma SaveRehashesOnlyModified(f: Farmer, payments: seq<Payment>, password: string)
    ensures Save(Load(f).(payments := payments)) == f.(payments := payments)
    ensures ComparePassword(Save(Load(f).(password := Assigned(password))), password)
    ensures forall other ::
              ComparePassword(Save(Load(f).(password := Assigned(password))), other)
              <==> Significant(other) == Significant(password)
  {
  }

  /** The `totalPaid` virtual: `payments.reduce((sum, p) => sum + (p.amount || 0), 0)`,
      a left fold. `p.amount || 0` is `p.amount` for every number but `NaN`, which
      this model does not represent. */
  function TotalPaid(ps: seq<Payment>): (r: real)
    ensures |ps| == 0 ==> r == 0.0
    ensures (forall i :: 0 <= i < |ps| ==> ps[i].amount >= 0.0) ==> r >= 0.0
    decreases |ps|
  {
    if |ps| == 0 then 0.0 else TotalPaid(ps[..|ps| - 1]) + ps[|ps| - 1].amount
  }

  /** Appending a payment raises the total by exactly its amount. */
  lemma TotalPaidAppend(ps: seq<Payment>, p: Payment)
    ensures TotalPaid(ps + [p]) == TotalPaid(ps) + p.amount
  {
  }

  /** The total of a concatenated history is the sum of the two totals. */
  lemma {:induction false} TotalPaidConcat(a: seq<Payment>, b: seq<Payment>)
    ensures TotalPaid(a + b) == TotalPaid(a) + TotalPaid(b)
    decreases |b|
  {
    if |b| == 0 {
      assert a + b == a;
    } else {
      var b' := b[..|b| - 1];
      TotalPaidConcat(a, b');
      assert a + b == (a + b') + [b[|b| - 1]];
      TotalPaidAppend(a + b', b[|b| - 1]);
      assert b == b' + [b[|b| - 1]];
      TotalPaidAppend(b', b[|b| - 1]);
    }
  }

  /** The plain sum of the amounts, first payment first. */
  function SumOfAmounts(ps: seq<Payment>): real
    decreases |ps|
  {
    if |ps| == 0 then 0.0 else ps[0].amount + SumOfAmounts(ps[1..])
  }

  /** The left fold computes the plain sum of the payment amounts. */
  lemma {:induction false} TotalPaidIsSum(ps: seq<Payment>)
    ensures TotalPaid(ps) == SumOfAmounts(ps)
    decreases |ps|
  {
    if |ps| > 0 {
      TotalPaidIsSum(ps[1..]);
      TotalPaidConcat([ps[0]], ps[1..]);
      assert [ps[0]] + ps[1..] == ps;
      assert TotalPaid([ps[0]]) == ps[0].amount by {
        assert [ps[0]][..0] == [];
      }
    }
  }

  /** A JSON value, as `res.json` sends it. */
  datatype Json = JNull | JStr(s: string) | JNum(n: real) | JArr(items: seq<Json>) | JObj(fields: map<string, Json>)

  function OptionalString(s: Option<string>): Json {
    match s
    case None => JNull
    case Some(v) => JStr(v)
  }

  function PaymentJson(p: Payment): Json {
    JObj(map["amount" := JNum(p.amount), "workId" := OptionalString(p.workId)])
  }

  /** The document's own fields and its virtuals, before the `toJSON` transform. */
  function RawFields(id: Id, f: Farmer): map<string, Json> {
    map[
      "_id" := JStr(id),
      "id" := JStr(id),
      "name" := JStr(f.name),
      "phone" := JStr(f.phone),
      "password" := JStr(DigestText(f.hash)),
      "profileImage" := OptionalString(f.profileImage),
      "payments" := JArr(seq(|f.payments|, i requires 0 <= i < |f.payments| => PaymentJson(f.payments[i]))),
      "totalPaid" := JNum(TotalPaid(f.payments))
    ]
  }

  /** `toJSON` with `virtuals: true` and a transform that deletes `password`: the
      serialised farmer carries every field and the `totalPaid` virtual, but never
      the password digest. */
  function ToJson(id: Id, f: Farmer): (j: Json)
    ensures j.JObj? && "password" !in j.fields
    ensures j.fields.Keys == RawFields(id, f).Keys - {"password"}
    ensures "totalPaid" in j.fields && j.fields["totalPaid"] == JNum(TotalPaid(f.payments))
    ensures "phone" in j.fields && j.fields["phone"] == JStr(f.phone)
  {
    JObj(RawFields(id, f) - {"password"})
  }
}

=== FILE: farmer_routes.dfy ===
/** The farmer routes of routes/farmer.js: self-registration, and the dashboard
    behind the gate of middleware.js. */
module FarmerRoutes {
  import opened Wrappers
  import opened Http
  import opened Crypto
  import opened Tokens
  import opened FarmerModel
  import opened Store
  import Middleware

  /** Registration: 400 on a missing field, 409 when the phone is taken, otherwise
      201 and exactly one new farmer with the schema defaults (no payments, no
      profile image). */
  function Register(st: State, newId: Id, name: string, phone: string, password: string): (r: Step<Id>)
    requires newId !in st.farmers
    ensures name == "" || phone == "" || password == "" ==> r == Step(Err(BadRequest, "All fields are required"), st)
    ensures name != "" && phone != "" && password != "" && PhoneTaken(st.farmers, phone) ==>
              r == Step(Err(Conflict, "Farmer already exists"), st)
    ensures r.reply.Ok? <==> name != "" && phone != "" && password != "" && !PhoneTaken(st.farmers, phone)
    ensures r.reply.Ok? ==>
              && r.reply == Ok(Created, newId)
              && r.next.farmers.Keys == st.farmers.Keys + {newId}
              && (forall id :: id in st.farmers ==> r.next.farmers[id] == st.farmers[id])
              && r.next.admins == st.admins && r.next.works == st.works
    ensures r.reply.Ok? ==> var f := r.next.farmers[newId];
              && f.name == name && f.phone == phone && f.payments == [] && f.profileImage.None?
              && ComparePassword(f, password)
  {
    if name == "" || phone == "" || password == "" then Step(Err(BadRequest, "All fields are required"), st)
    else if FindByPhone(st.farmers, phone).Some? then Step(Err(Conflict, "Farmer already exists"), st)
    else
      var farmer := Save(NewDoc(name, phone, password, None));
      Step(Ok(Created, newId), st.(farmers := Insert(st.farmers, newId, farmer)))
  }

  /** `Farmer.findById(id).select('name phone payments')` with the works of that
      farmer; the password is not selected, and the serialised farmer carries the
      `id` and `totalPaid` virtuals. */
  datatype DashboardView = DashboardView(id: Id, name: string, phone: string, payments: seq<Payment>,
                                         totalPaid: real, works: map<Id, Work>)

  /** The dashboard handler once the gate has admitted a farmer. */
  function DashboardOf(st: State, user: User): (r: Reply<DashboardView>)
    ensures user.id !in st.farmers ==> r == Err(NotFound, "Farmer not found")
    ensures user.id in st.farmers ==> r.Ok? && r.status == OK
    ensures r.Ok? ==> var f := st.farmers[user.id];
              && r.body.id == user.id && r.body.name == f.name && r.body.phone == f.phone
              && r.body.payments == f.payments
              && r.body.totalPaid == SumOfAmounts(f.payments)
              && (forall w :: w in r.body.works <==> w in st.works && st.works[w].farmer == user.id)
              && (forall w :: w in r.body.works ==> r.body.works[w] == st.works[w])
  {
    if user.id !in st.farmers then Err(NotFound, "Farmer not found")
    else
      var f := st.farmers[user.id];
      TotalPaidIsSum(f.payments);
      Ok(OK, DashboardView(user.id, f.name, f.phone, f.payments, TotalPaid(f.payments), WorksOf(st.works, user.id)))
  }

  /** `GET /dashboard`: the farmer gate of middleware.js, then the handler. */
  function Dashboard(st: State, header: Option<string>, verify: Verifier): (r: Reply<DashboardView>)
    ensures Middleware.AuthFarmer(header, verify).Reject? ==>
              r == Err(Middleware.AuthFarmer(header, verify).status, Middleware.AuthFarmer(header, verify).error)
    ensures var g := Middleware.AuthFarmer(header, verify);
            g.Proceed? ==> r == DashboardOf(st, g.ctx.user.value)
    ensures r.Ok? ==>
              && Middleware.AuthFarmer(header, verify).Proceed?
              && r.body.id == Middleware.AuthFarmer(header, verify).ctx.user.value.id
  {
    match Middleware.AuthFarmer(header, verify)
    case Reject(status, error) => Err(status, error)
    case Proceed(ctx) =>
      match ctx.user
      case None => Err(ServerError, UndefinedId)
      case Some(user) => DashboardOf(st, user)
  }

  /** Only a verified farmer-role token opens the dashboard, and it shows that
      farmer's own record: a token of any other role gets 403. */
  lemma DashboardOnlyForFarmers(st: State, header: Option<string>, verify: Verifier)
    ensures Dashboard(st, header, verify).Ok? ==>
              var c := verify(Middleware.FormatToken(header));
              c.Some? && c.value.role == FarmerRole && Dashboard(st, header, verify).body.id == c.value.id
    ensures var c := verify(Middleware.FormatToken(header));
            Middleware.FormatToken(header).Some? && c.Some? && c.value.role != FarmerRole ==>
              Dashboard(st, header, verify).status == Forbidden
  {
  }
}

=== FILE: http.dfy ===
/** Status codes and the reply shape shared by every route handler. */
module Http {

  const OK := 200
  const Created := 201
  const BadRequest := 400
  const Unauthorized := 401
  const Forbidden := 403
  const NotFound := 404
  const Conflict := 409
  const ServerError := 500

  /** The `TypeError` message a handler's `catch` sends when it reads `.id` of an
      undefined request field. */
  const UndefinedId := "Cannot read properties of undefined (reading 'id')"

  /** A JSON reply: a success status with a payload, or an error status with the
      `error` message the handler sends. */
  datatype Reply<+T> = Ok(status: int, body: T) | Err(status: int, error: string)
}

=== FILE: middleware.dfy ===
/** The role gate of middleware.js, used by the farmer routes: it rejects a
    missing header, then a header without a token field, then a token that does
    not verify, then a token of the wrong role. */
module Middleware {
  import opened Wrappers
  import opened Http
  import opened Tokens

  const NoToken := "No token provided"
  const BadFormat := "Invalid token format"
  const BadToken := "Invalid or expired token"

  /** The token the format check lets through: present and non-empty. */
  function FormatToken(header: Option<string>): Option<string> {
    if !HeaderPresent(header) then None
    else
      var t := BearerToken(header.value);
      if t.Some? && t.value != "" then t else None
  }

  /** The common body of `authAdmin` and `authFarmer` for the required `role`. */
  function Authorize(header: Option<string>, verify: Verifier, role: string, roleError: string): (g: Gate)
    ensures !HeaderPresent(header) ==> g == Reject(Unauthorized, NoToken)
    ensures HeaderPresent(header) && FormatToken(header).None? ==> g == Reject(Unauthorized, BadFormat)
    ensures FormatToken(header).Some? && verify(FormatToken(header)).None? ==> g == Reject(Unauthorized, BadToken)
    ensures (FormatToken(header).Some? && verify(FormatToken(header)).Some?
             && verify(FormatToken(header)).value.role != role) ==> g == Reject(Forbidden, roleError)
    ensures g.Reject? ==> g.status == Unauthorized || (g.status == Forbidden && g.error == roleError)
    ensures g.Proceed? <==>
              FormatToken(header).Some? && verify(FormatToken(header)).Some?
              && verify(FormatToken(header)).value.role == role
    ensures g.Proceed? ==> g.ctx == Admitted(verify(FormatToken(header)).value, role)
    ensures g.Reject? && g.status == Forbidden ==>
              FormatToken(header).Some? && verify(FormatToken(header)).Some?
              && verify(FormatToken(header)).value.role != role
  {
    if !HeaderPresent(header) then Reject(Unauthorized, NoToken)
    else
      var token := BearerToken(header.value);
      if token.None? || token.value == "" then Reject(Unauthorized, BadFormat)
      else
        match verify(token)
        case None => Reject(Unauthorized, BadToken)
        case Some(decoded) =>
          if decoded.role != role then Reject(Forbidden, roleError)
          else Proceed(Admitted(decoded, role))
  }

  function AuthAdmin(header: Option<string>, verify: Verifier): Gate {
    Authorize(header, verify, AdminRole, "Admin access only")
  }

  function AuthFarmer(header: Option<string>, verify: Verifier): Gate {
    Authorize(header, verify, FarmerRole, "Farmer access only")
  }

  /** No header is let through by both gates: the admitted role is the one required. */
  lemma RolesExclusive(header: Option<string>, verify: Verifier)
    ensures !(AuthAdmin(header, verify).Proceed? && AuthFarmer(header, verify).Proceed?)
    ensures AuthAdmin(header, verify).Proceed? ==> AuthFarmer(header, verify) == Reject(Forbidden, "Farmer access only")
    ensures AuthFarmer(header, verify).Proceed? ==> AuthAdmin(header, verify) == Reject(Forbidden, "Admin access only")
  {
  }
}

=== FILE: route_middleware.dfy ===
/** The role gate of routes/middleware.js, used by the admin routes. It is
    middleware.js without the token-format check: whatever `split(' ')[1]` yields,
    `undefined` included, goes straight to verification. */
module RouteMiddleware {
  import opened Wrappers
  import opened Http
  import opened Tokens
  import Middleware

  const NoToken := "No token provided"
  const BadToken := "Invalid or expired token"

  /** The token passed to `jwt.verify`: field 1 of the header, possibly `undefined`. */
  function RawToken(header: Option<string>): Option<string> {
    if HeaderPresent(header) then BearerToken(header.value) else None
  }

  function Authorize(header: Option<string>, verify: Verifier, role: string, roleError: string): (g: Gate)
    ensures !HeaderPresent(header) ==> g == Reject(Unauthorized, NoToken)
    ensures HeaderPresent(header) && verify(RawToken(header)).None? ==> g == Reject(Unauthorized, BadToken)
    ensures (HeaderPresent(header) && verify(RawToken(header)).Some?
             && verify(RawToken(header)).value.role != role) ==> g == Reject(Forbidden, roleError)
    ensures g.Reject? ==> g.status == Unauthorized || (g.status == Forbidden && g.error == roleError)
    ensures g.Proceed? <==>
              HeaderPresent(header) && verify(RawToken(header)).Some? && verify(RawToken(header)).value.role == role
    ensures g.Proceed? ==> g.ctx == Admitted(verify(RawToken(header)).value, role)
  {
    if !HeaderPresent(header) then Reject(Unauthorized, NoToken)
    else
      var token := BearerToken(header.value);
      match verify(token)
      case None => Reject(Unauthorized, BadToken)
      case Some(decoded) =>
        if decoded.role != role then Reject(Forbidden, roleError)
        else Proceed(Admitted(decoded, role))
  }

  function AuthAdmin(header: Option<string>, verify: Verifier): Gate {
    Authorize(header, verify, AdminRole, "Admin only")
  }

  function AuthFarmer(header: Option<string>, verify: Verifier): Gate {
    Authorize(header, verify, FarmerRole, "Farmer only")
  }

  lemma RolesExclusive(header: Option<string>, verify: Verifier)
    ensures !(AuthAdmin(header, verify).Proceed? && AuthFarmer(header, verify).Proceed?)
  {
  }

  /** With a verifier that throws on an undefined or empty token, as jsonwebtoken
      does, this gate and the one of middleware.js give every header the same
      status and, when they let it through, the same request context; only the
      error messages differ. */
  lemma AgreesWithFormatCheckingGate(header: Option<string>, verify: Verifier, role: string, e1: string, e2: string)
    requires RejectsMissing(verify)
    ensures Middleware.Authorize(header, verify, role, e1).Code() == Authorize(header, verify, role, e2).Code()
    ensures Middleware.Authorize(header, verify, role, e1).Proceed? ==>
              Middleware.Authorize(header, verify, role, e1) == Authorize(header, verify, role, e2)
  {
  }

  lemma GatesAgree(header: Option<string>, verify: Verifier)
    requires RejectsMissing(verify)
    ensures Middleware.AuthAdmin(header, verify).Code() == AuthAdmin(header, verify).Code()
    ensures Middleware.AuthFarmer(header, verify).Code() == AuthFarmer(header, verify).Code()
  {
  }

  /** The agreement needs the verifier to reject a missing token: one that accepted
      `undefined` would let "Bearer" through this gate while the other answers 401. */
  lemma AgreementNeedsStrictVerifier()
    ensures var lax: Verifier := (t: Option<string>) => Some(Claims("a", AdminRole, 0));
            && Middleware.AuthAdmin(Some("Bearer"), lax) == Reject(Unauthorized, Middleware.BadFormat)
            && AuthAdmin(Some("Bearer"), lax).Proceed?
  {
  }

  /** A token signed with the farmer role is refused with 403 by the admin gate for
      as long as it has not expired, and with 401 afterwards: never admitted. */
  lemma {:induction false} FarmerTokenNeverAdmin(token: string, c: Claims, issued: map<string, Claims>, now: int)
    requires token in issued && issued[token] == c && c.role == FarmerRole
    requires token != "" && ' ' !in token
    ensures now < c.exp ==> AuthAdmin(Some("Bearer " + token), Registry(issued, now)) == Reject(Forbidden, "Admin only")
    ensures now >= c.exp ==> AuthAdmin(Some("Bearer " + token), Registry(issued, now)) == Reject(Unauthorized, BadToken)
  {
    BearerTokenOf("Bearer", token, "");
    assert "Bearer " + token == "Bearer" + " " + token;
    var h := Some("Bearer " + token);
    assert HeaderPresent(h);
    assert RawToken(h) == Some(token);
    assert Registry(issued, now)(Some(token)) == if now < c.exp then Some(c) else None;
  }
}

=== FILE: sessions.dfy ===
/** How the tokens the logins issue fare at the two gates over time: the login
    routes sign claims, a server that remembers what it signed verifies them at a
    later clock reading, and the gates decide. */
module Sessions {
  import opened Wrappers
  import opened Http
  import opened Tokens
  import opened Store
  import AuthRoutes
  import AdminRoutes
  import FarmerRoutes
  import Middleware
  import RouteMiddleware

  /** The header a client sends with a token. */
  function BearerHeader(token: string): Option<string> {
    Some("Bearer " + token)
  }

  lemma {:induction false} HeaderCarriesToken(token: string)
    requires token != "" && ' ' !in token
    ensures Middleware.FormatToken(BearerHeader(token)) == Some(token)
    ensures RouteMiddleware.RawToken(BearerHeader(token)) == Some(token)
  {
    BearerTokenOf("Bearer", token, "");
    assert "Bearer " + token == "Bearer" + " " + token;
  }

  /** A farmer's session token opens no administrator route: every request carrying
      it is refused with 403 until it expires seven days after the login, and with
      401 from then on; the state is never changed. */
  lemma {:induction false} FarmerSessionCannotAdminister(
    st0: State, phone: string, password: string, now: int,
    token: string, issued: map<string, Claims>, later: int,
    st: State, req: AdminRoutes.Request)
    requires AuthRoutes.FarmerLogin(st0, phone, password, now).Ok?
    requires token in issued && issued[token] == AuthRoutes.FarmerLogin(st0, phone, password, now).body.token
    requires token != "" && ' ' !in token
    requires AdminRoutes.FreshIds(st, req)
    ensures later < now + FarmerLifetime ==>
              AdminRoutes.Serve(st, BearerHeader(token), Registry(issued, later), req) == Step(Err(Forbidden, "Admin only"), st)
    ensures later >= now + FarmerLifetime ==>
              AdminRoutes.Serve(st, BearerHeader(token), Registry(issued, later), req) == Step(Err(Unauthorized, RouteMiddleware.BadToken), st)
  {
    var c := issued[token];
    assert c.role == FarmerRole && c.exp == now + FarmerLifetime;
    RouteMiddleware.FarmerTokenNeverAdmin(token, c, issued, later);
  }

  /** A farmer's session token opens that farmer's own dashboard for seven days. */
  lemma {:induction false} FarmerSessionOpensOwnDashboard(
    st: State, phone: string, password: string, now: int,
    token: string, issued: map<string, Claims>, later: int)
    requires AuthRoutes.FarmerLogin(st, phone, password, now).Ok?
    requires token in issued && issued[token] == AuthRoutes.FarmerLogin(st, phone, password, now).body.token
    requires token != "" && ' ' !in token
    requires later < now + FarmerLifetime
    ensures var d := FarmerRoutes.Dashboard(st, BearerHeader(token), Registry(issued, later));
            && d.Ok?
            && d.body.id == AuthRoutes.FarmerLogin(st, phone, password, now).body.farmerId
            && d.body.phone == phone
  {
    HeaderCarriesToken(token);
  }

  /** An administrator's session token reaches the ledger: for twelve hours after the
      login, a payment request carrying it gets exactly the reply of the add-payment
      handler and leaves the state that handler leaves, in whatever state it arrives. */
  lemma {:induction false} AdminSessionRecordsPayment(
    st0: State, username: string, password: string, now: int,
    token: string, issued: map<string, Claims>, later: int,
    st: State, farmerId: Id, amount: real, workId: string)
    requires AuthRoutes.AdminLogin(st0, username, password, now).Ok?
    requires token in issued && issued[token] == AuthRoutes.AdminLogin(st0, username, password, now).body
    requires token != "" && ' ' !in token
    requires later < now + AdminLifetime
    ensures var r := AdminRoutes.Serve(st, BearerHeader(token), Registry(issued, later),
                                       AdminRoutes.AddPaymentReq(farmerId, amount, workId));
            var p := AdminRoutes.AddPayment(st, farmerId, amount, workId);
            && r.next == p.next
            && (p.reply.Ok? ==> r.reply == Ok(p.reply.status, AdminRoutes.Done))
            && (p.reply.Err? ==> r.reply == Err(p.reply.status, p.reply.error))
  {
    AdminSessionAdmitted(st0, username, password, now, token, issued, later);
  }

  /** An administrator's session token passes the administrator gate for twelve
      hours, carrying the administrator's id in `req.user`, and is refused by the
      farmer dashboard with 403. */
  lemma {:induction false} AdminSessionAdmitted(
    st: State, username: string, password: string, now: int,
    token: string, issued: map<string, Claims>, later: int)
    requires AuthRoutes.AdminLogin(st, username, password, now).Ok?
    requires token in issued && issued[token] == AuthRoutes.AdminLogin(st, username, password, now).body
    requires token != "" && ' ' !in token
    requires later < now + AdminLifetime
    ensures var g := RouteMiddleware.AuthAdmin(BearerHeader(token), Registry(issued, later));
            && g.Proceed?
            && g.ctx.user == Some(User(issued[token].id, AdminRole))
            && g.ctx.admin.None?
    ensures FarmerRoutes.Dashboard(st, BearerHeader(token), Registry(issued, later)) == Err(Forbidden, "Farmer access only")
  {
    HeaderCarriesToken(token);
  }
}

=== FILE: store.dfy ===
/** The database the route handlers read and write: the administrators, the
    farmers and the work records. */
module Store {
  import opened Wrappers
  import opened Http
  import opened Crypto
  import opened Tokens
  import opened FarmerModel

  /** An administrator account. Its fields are those the handlers use. */
  datatype Admin = Admin(id: Id, username: string, hash: Digest)

  /** A work record, with the fields the add-work handler gives it: the farmer it
      belongs to, the duration in minutes, the rate per 60 minutes, the derived
      amount and the amount paid against it so far. The date is not modelled. */
  datatype Work = Work(farmer: Id, workType: string, minutes: int, ratePer60: real,
                       totalAmount: real, notes: string, paymentGiven: real)

  /** The three collections. Administrators keep their natural (insertion) order,
      which is the order `Admin.findOne` scans. */
  datatype State = State(admins: seq<Admin>, farmers: FarmerMap, works: map<Id, Work>)

  /** A handler's reply together with the state it leaves behind. */
  datatype Step<+T> = Step(reply: Reply<T>, next: State)

  /** The first position whose element satisfies `p`: what `findOne` returns on a
      collection scanned in natural order. */
  function FirstIndex<T>(s: seq<T>, p: T -> bool): (r: Option<nat>)
    ensures r.Some? ==> r.value < |s| && p(s[r.value])
    ensures r.Some? ==> forall j :: 0 <= j < r.value ==> !p(s[j])
    ensures r.None? ==> forall j :: 0 <= j < |s| ==> !p(s[j])
    decreases |s|
  {
    if |s| == 0 then None
    else if p(s[0]) then Some(0)
    else
      match FirstIndex(s[1..], p)
      case None => None
      case Some(i) => Some(i + 1)
  }

  /** `Admin.findOne({ username })`. */
  function FindAdminByUsername(admins: seq<Admin>, username: string): Option<nat> {
    FirstIndex(admins, (a: Admin) => a.username == username)
  }

  /** `Admin.findById(id)`. */
  function FindAdminById(admins: seq<Admin>, id: Id): Option<nat> {
    FirstIndex(admins, (a: Admin) => a.id == id)
  }

  /** `(minutes / 60) * Number(ratePer60)`, in exact arithmetic. */
  function WorkTotal(minutes: int, ratePer60: real): (total: real)
    ensures total * 60.0 == minutes as real * ratePer60
  {
    (minutes as real / 60.0) * ratePer60
  }

  /** Ninety minutes at 100 per hour come to 150. */
  lemma WorkTotalExample()
    ensures WorkTotal(90, 100.0) == 150.0
  {
  }

  /** The works of one farmer: `Work.find({ farmer: id })`. */
  function WorksOf(works: map<Id, Work>, farmer: Id): (r: map<Id, Work>)
    ensures forall w :: w in r <==> w in works && works[w].farmer == farmer
    ensures forall w :: w in r ==> r[w] == works[w]
  {
    map w | w in works && works[w].farmer == farmer :: works[w]
  }
}

=== FILE: strings.dfy ===
/** The few JavaScript string operations the handlers rely on:
    `split` on one character, `padEnd`, and `Number` on digit strings. */
module Strings {
  import opened Wrappers

  /** `s.split(c)` for a one-character separator `c`: the maximal runs between
      separators, including empty ones, so there is always at least one field. */
  function Split(s: string, c: char): (r: seq<string>)
    ensures |r| >= 1
    ensures |r| == 1 <==> c !in s
    ensures forall i :: 0 <= i < |r| ==> c !in r[i]
    decreases |s|
  {
    if |s| == 0 then [""]
    else
      var rest := Split(s[1..], c);
      if s[0] == c then [""] + rest
      else [[s[0]] + rest[0]] + rest[1..]
  }

  /** `fs.join(c)`: the inverse of `Split`. */
  function Join(fs: seq<string>, c: char): (s: string)
    requires |fs| >= 1
    decreases |fs|
  {
    if |fs| == 1 then fs[0] else fs[0] + [c] + Join(fs[1..], c)
  }

  /** Joining the fields of a split gives the original string back. */
  lemma {:induction false} JoinSplit(s: string, c: char)
    ensures Join(Split(s, c), c) == s
    decreases |s|
  {
    if |s| > 0 {
      JoinSplit(s[1..], c);
      var rest := Split(s[1..], c);
      if s[0] == c {
        assert Split(s, c) == [""] + rest;
        assert ([""] + rest)[1..] == rest;
      } else {
        var r := Split(s, c);
        assert r == [[s[0]] + rest[0]] + rest[1..];
        if |rest| == 1 {
          assert Join(r, c) == [s[0]] + rest[0];
        } else {
          assert r[1..] == rest[1..];
          assert Join(rest, c) == rest[0] + [c] + Join(rest[1..], c);
        }
        assert s == [s[0]] + s[1..];
      }
    }
  }

  /** A string without the separator splits into itself alone. */
  lemma SplitNoSeparator(s: string, c: char)
    requires c !in s
    ensures Split(s, c) == [s]
  {
    JoinSplit(s, c);
  }

  /** Splitting `a + c + b` where `a` holds no separator peels `a` off as the first field. */
  lemma {:induction false} SplitCons(a: string, b: string, c: char)
    requires c !in a
    ensures Split(a + [c] + b, c) == [a] + Split(b, c)
    decreases |a|
  {
    if |a| == 0 {
      assert a + [c] + b == [c] + b;
      assert ([c] + b)[1..] == b;
    } else {
      SplitCons(a[1..], b, c);
      assert (a + [c] + b)[1..] == a[1..] + [c] + b;
      assert [a[0]] + a[1..] == a;
    }
  }

  /** Splitting the join of separator-free fields recovers the fields. */
  lemma {:induction false} SplitJoin(fs: seq<string>, c: char)
    requires |fs| >= 1
    requires forall i :: 0 <= i < |fs| ==> c !in fs[i]
    ensures Split(Join(fs, c), c) == fs
    decreases |fs|
  {
    if |fs| == 1 {
      SplitNoSeparator(fs[0], c);
    } else {
      SplitJoin(fs[1..], c);
      SplitCons(fs[0], Join(fs[1..], c), c);
      assert [fs[0]] + fs[1..] == fs;
    }
  }

  /** `s.padEnd(n, c)`: `s` extended with copies of `c` up to length `n`; never shortened. */
  function PadEnd(s: string, n: nat, c: char): (r: string)
    ensures |r| == if |s| >= n then |s| else n
    ensures r[..|s|] == s
    ensures forall i :: |s| <= i < |r| ==> r[i] == c
    decreases n - |s|
  {
    if |s| >= n then s else PadEnd(s + [c], n, c)
  }

  predicate IsDigit(ch: char) {
    '0' <= ch <= '9'
  }

  predicate AllDigits(s: string) {
    forall i :: 0 <= i < |s| ==> IsDigit(s[i])
  }

  lemma NoDotInDigits(s: string)
    requires AllDigits(s)
    ensures '.' !in s
  {
  }

  /** The decimal value of a digit string, most significant digit first. */
  function DigitsValue(s: string): nat
    requires AllDigits(s)
    decreases |s|
  {
    if |s| == 0 then 0
    else 10 * DigitsValue(s[..|s| - 1]) + (s[|s| - 1] as int - '0' as int)
  }

  /** The decimal digits of `n`, with no leading zero. */
  function ToDigits(n: nat): (s: string)
    ensures |s| >= 1 && AllDigits(s)
    decreases n
  {
    if n < 10 then [('0' as int + n) as char]
    else ToDigits(n / 10) + [('0' as int + n % 10) as char]
  }

  /** Reading back the digits of `n` gives `n`. */
  lemma {:induction false} DigitsRoundTrip(n: nat)
    ensures DigitsValue(ToDigits(n)) == n
    decreases n
  {
    if n >= 10 {
      DigitsRoundTrip(n / 10);
      var s := ToDigits(n);
      assert s[..|s| - 1] == ToDigits(n / 10);
    }
  }

  /** Appending a digit multiplies the value by ten and adds that digit. */
  lemma DigitsAppend(s: string, d: char)
    requires AllDigits(s) && IsDigit(d)
    ensures AllDigits(s + [d])
    ensures DigitsValue(s + [d]) == 10 * DigitsValue(s) + (d as int - '0' as int)
  {
  }

  /** JavaScript's `Number(s)` on the strings this model admits: a digit string
      (the empty string reads as 0); any other string is `NaN`, here `None`. */
  function JsNumber(s: string): (r: Option<int>)
    ensures r.Some? ==> r.value >= 0
  {
    if AllDigits(s) then Some(DigitsValue(s)) else None
  }

  /** `Number` reads back every decimal rendering of a natural number, and only
      digit strings are numbers. */
  lemma JsNumberOfDigits(n: nat, s: string)
    ensures JsNumber(ToDigits(n)) == Some(n)
    ensures JsNumber(s).Some? <==> AllDigits(s)
  {
    DigitsRoundTrip(n);
  }
}

=== FILE: tokens.dfy ===
/** Signed identity assertions (JSON Web Tokens) and the shapes shared by the two
    copies of the role gate. Signatures are not modelled: a token is an opaque
    string and verification is an oracle from the token to its claims. */
module Tokens {
  import opened Wrappers
  import opened Strings
  import opened Http

  /** A database id (a Mongo ObjectId in its string form). */
  type Id = string

  const AdminRole := "admin"
  const FarmerRole := "farmer"

  /** `expiresIn: '12h'` and `expiresIn: '7d'`, in seconds. */
  const AdminLifetime: nat := 12 * 60 * 60
  const FarmerLifetime: nat := 7 * 24 * 60 * 60

  /** The payload of a signed token: the principal, its role and the expiry instant. */
  datatype Claims = Claims(id: Id, role: string, exp: int)

  /** `jwt.sign({ id, role }, secret, { expiresIn })` at clock time `now`. */
  function Sign(id: Id, role: string, lifetime: nat, now: int): Claims {
    Claims(id, role, now + lifetime)
  }

  /** `jwt.verify(token, secret)`: the claims, or `None` where it throws (bad
      signature, expired, malformed). The argument is `None` for `undefined`. */
  type Verifier = Option<string> -> Option<Claims>

  /** jsonwebtoken throws "jwt must be provided" on an undefined or empty token. */
  predicate RejectsMissing(verify: Verifier) {
    verify(None) == None && verify(Some("")) == None
  }

  /** The verifier of a server that signed the tokens in `issued`, asked at clock
      time `now`: a token is accepted while `now < exp`. */
  function Registry(issued: map<string, Claims>, now: int): (verify: Verifier)
    ensures forall t :: verify(t).Some? ==>
              t.Some? && t.value in issued && now < issued[t.value].exp && verify(t).value == issued[t.value]
    ensures forall token :: token in issued && now < issued[token].exp ==> verify(Some(token)) == Some(issued[token])
    ensures "" !in issued ==> RejectsMissing(verify)
  {
    (t: Option<string>) => if t.Some? && t.value in issued && now < issued[t.value].exp then Some(issued[t.value]) else None
  }

  /** `authorization.split(' ')[1]`: the second space-separated field, or `None`
      (`undefined`) when the header holds no space. */
  function BearerToken(header: string): (r: Option<string>)
    ensures r.Some? <==> ' ' in header
    ensures r.Some? ==> ' ' !in r.value
  {
    var fields := Split(header, ' ');
    if |fields| > 1 then Some(fields[1]) else None
  }

  /** "Bearer <token>" yields the token, for any scheme word and any trailing fields. */
  lemma {:induction false} BearerTokenOf(scheme: string, token: string, rest: string)
    requires ' ' !in scheme && ' ' !in token
    ensures BearerToken(scheme + " " + token) == Some(token)
    ensures BearerToken(scheme + " " + token + " " + rest) == Some(token)
  {
    SplitCons(scheme, token, ' ');
    SplitNoSeparator(token, ' ');
    assert scheme + " " + token == scheme + [' '] + token;
    var h := scheme + " " + token + " " + rest;
    assert h == scheme + [' '] + (token + [' '] + rest);
    SplitCons(scheme, token + [' '] + rest, ' ');
    SplitCons(token, rest, ' ');
  }

  /** A header without a space has no token ("Bearer"), and a doubled space yields
      an empty one ("Bearer  x"). */
  lemma {:induction false} MalformedHeaders(h: string, scheme: string, x: string)
    requires ' ' !in h && ' ' !in scheme
    ensures BearerToken(h) == None
    ensures BearerToken(scheme + "  " + x) == Some("")
  {
    var d := scheme + "  " + x;
    assert d == scheme + [' '] + ([] + [' '] + x);
    SplitCons(scheme, [] + [' '] + x, ' ');
    SplitCons([], x, ' ');
  }

  /** The principal the gate attaches to the request. */
  datatype User = User(id: Id, role: string)

  /** What a handler can read from the request: `req.user` and `req.admin`. */
  datatype Ctx = Ctx(user: Option<User>, admin: Option<User>)

  /** The gate's decision: an error reply (the handler is not called) or the
      request context the handler runs with. */
  datatype Gate = Reject(status: int, error: string) | Proceed(ctx: Ctx) {
    /** The status the client sees from the gate: its own, or the handler's 200 path. */
    function Code(): int {
      if Reject? then status else OK
    }
  }

  /** JavaScript truthiness of the `Authorization` header. */
  predicate HeaderPresent(header: Option<string>) {
    header.Some? && header.value != ""
  }

  /** The context after a successful gate: `req.user` set, `req.admin` never. */
  function Admitted(c: Claims, role: string): (ctx: Ctx)
    ensures ctx.user.Some? && ctx.user.value.id == c.id && ctx.user.value.role == role
    ensures ctx.admin.None?
  {
    Ctx(Some(User(c.id, role)), None)
  }
}

=== FILE: wrappers.dfy ===
/** The optional value used wherever JavaScript has `null` or `undefined`. */
module Wrappers {

  datatype Option<+T> = None | Some(value: T) {

    /** The value, or `default` when absent (JavaScript's `x || default` on an optional). */
    function GetOr(default: T): T {
      match this
      case Some(v) => v
      case None => default
    }
  }
}
